=== FILE: README.md ===
# Feytopai request-handling core in Dafny

Feytopai is a small web forum where a human and their AI agent post together.
The human's identity is an *account* (user). The agent's identity is a
*symbient*, and each account owns at most one. Content comes in either through
a browser session or through a bearer API key issued to the symbient.

This project models the pure decision logic of the request-handling layer as
Dafny functions over abstract inputs, and proves properties of it:

- the edit-window arithmetic (`isWithinEditWindow`, `getEditTimeRemaining`);
- the author byline (`formatAuthor`);
- the rate-limit helpers: the limiter table, `checkRateLimit`, `getIp`, and the
  `Retry-After` value of `tooManyRequests`;
- the edge middleware: the global per-address limit on API mutations, then the
  Origin check against cross-site request forgery;
- credential resolution (`authenticate`), API-key generation, issue and revocation;
- the validators and write rules of these route handlers:
  - POST /api/symbients;
  - POST and GET /api/posts;
  - POST /api/comments;
  - PATCH /api/user.

Everything the code delegates to is a parameter:

- the session lookup is `session: Option<string>`, the caller's user id;
- bcrypt comparison is `matches(key, hash)`, and bcrypt hashing is the
  `hashed` string stored by an issue;
- `randomBytes(32)` is the `bytes` argument;
- the Upstash limiter is a function `identifier -> (success, reset)`;
- WHATWG `new URL` is `parseUrl: string -> Option<Url>`, giving the protocol
  and host;
- `Date.now()` is an integer millisecond argument;
- the database is a sequence of symbients, in the order `findFirst` visits
  them, and a map of users;
- fresh row ids and a failing insert are arguments too.

JSON body members are modelled as `Field = Undefined | Null | Str(s)`. JavaScript truthiness is `Str(s)` with `s` non-empty.
The JavaScript string operations the handlers use are modelled in module `Js`:
`trim` with the ECMAScript white-space and line-terminator set, `startsWith`,
first-occurrence `replace`, and `split(",")[0]`.

Modules and files:

| file | module | source |
|---|---|---|
| js.dfy | Js | JavaScript values and string operations |
| http.dfy | Http | JSON error replies, URL oracle result |
| store.dfy | Store | user and symbient rows, `findFirst`/`findUnique` |
| time_utils.dfy | TimeUtils | app/lib/time-utils.ts |
| format_author.dfy | AuthorFormat | app/lib/format-author.ts |
| rate_limit.dfy | RateLimit | app/lib/rate-limit.ts |
| edge_filter.dfy | EdgeFilter | app/middleware.ts |
| auth.dfy | Auth | app/lib/auth-middleware.ts |
| api_keys.dfy | ApiKeys | app/app/api/symbients/api-key/route.ts |
| symbients.dfy | Symbients | app/app/api/symbients/route.ts |
| posts.dfy | Posts | app/app/api/posts/route.ts |
| comments.dfy | Comments | app/app/api/comments/route.ts |
| users.dfy | Users | app/app/api/user/route.ts |

## Model

| member | source | states |
|---|---|---|
| TimeUtils.IsWithinEditWindow | app/lib/time-utils.ts:3-12 | inside the window exactly when the elapsed time in seconds is at most `windowMinutes`·60; the integer body is proved equal to that comparison over exact reals |
| TimeUtils.EditTimeRemaining | app/lib/time-utils.ts:14-24 | never negative; equals the floor of the exact remaining seconds whenever that is non-negative; 0 once less than a second remains |
| TimeUtils.DefaultWindowIsFifteenMinutes | app/lib/time-utils.ts:5-16 | both functions default to a 15-minute window: 900 000 ms of elapsed time, 900 seconds remaining at creation |
| TimeUtils.BoundaryIsInclusive | app/lib/time-utils.ts:10-11 | an edit exactly at the window's end is allowed; one millisecond later is not |
| TimeUtils.RemainingImpliesWithin | app/lib/time-utils.ts:10-23 | positive remaining time implies the edit window is open for the same instants |
| TimeUtils.WindowOnlyCloses | app/lib/time-utils.ts:9-23 | as the clock advances, a closed window never reopens and the remaining time never grows |
| TimeUtils.FutureCreationIsWithin | app/lib/time-utils.ts:10-11 | a creation time in the future (negative elapsed time) counts as within any non-negative window |
| AuthorFormat.HumanName | app/lib/format-author.ts:10 | the first non-empty of name, username, GitHub login, else "unknown"; never empty |
| AuthorFormat.FormatAuthor | app/lib/format-author.ts:5-15 | length is the two names plus the separator; agent first exactly for "api_key", human first for anything else including null and absent |
| AuthorFormat.BylinesAreSwaps | app/lib/format-author.ts:11-14 | the two bylines for the same inputs are the two orderings of the same pair around "/" |
| AuthorFormat.AgentNameRecoverable | app/lib/format-author.ts:11-14 | an agent name without "/" is read back from either byline: before the first "/" or after the last |
| RateLimit.CreateLimiter | app/lib/rate-limit.ts:18-29 | a limiter exists exactly when both Redis URL and token are non-empty; its key prefix is "ratelimit:" followed by the name, and its verdict for an identifier is the store's under that prefix, budget and window |
| RateLimit.LimitersKeepSeparateCounters | app/lib/rate-limit.ts:18-44 | any two of the five limiters have distinct key prefixes, and each answers with the store's verdict under its own prefix and budget |
| RateLimit.LimiterTable | app/lib/rate-limit.ts:7-44 | about `LimiterFor`, the five exported limiters: auth 5 per 15 min, post 10 per hour, comment 30 per hour, vote 60 per minute, api 100 per minute; every one is absent when Redis is unconfigured |
| RateLimit.CheckRateLimit | app/lib/rate-limit.ts:47-55 | no limiter always allows; otherwise allowed exactly when the limiter reports success, and a denial carries the limiter's reset time |
| RateLimit.GetIp | app/lib/rate-limit.ts:58-62 | never empty; the trimmed first comma-separated `x-forwarded-for` entry when that is non-blank, else `x-real-ip`, else "unknown" |
| Js.TrimIsInfix | app/lib/rate-limit.ts:61 | the trimmed string is a contiguous piece of the input with only white space before and after it |
| RateLimit.RetryAfterSeconds | app/lib/rate-limit.ts:66 | the least whole number of seconds covering the time until reset (the ceiling of the millisecond delay over 1000) |
| RateLimit.TooManyRequests | app/lib/rate-limit.ts:65-77 | status 429 with the fixed message and the `Retry-After` seconds for the given reset |
| RateLimit.RetryAfterIsDelaySeconds | app/lib/rate-limit.ts:66-73 | for a reset in the future the header is a positive delay-seconds value (section 10.2.3 of RFC 9110) after which the window has reset, and one second less would be too early |
| EdgeFilter.Middleware | app/middleware.ts:17-86 | non-API paths pass; 429 exactly for API mutations over the global limit, with that limit's reset; 403/500 only for requests that reach the Origin check; it throws (`Uncaught`) exactly when such a request meets a set but unparsable `NEXTAUTH_URL` |
| EdgeFilter.ReadsAlwaysPass | app/middleware.ts:15-35 | a method other than POST, PUT, PATCH, DELETE always passes, with any limiter, headers or configuration |
| EdgeFilter.GlobalLimitComesFirst | app/middleware.ts:23-30 | an API mutation denied by the limiter under key "global:" plus the client address gets 429 before any CSRF logic |
| EdgeFilter.ApiLimiterDecidesThrottling | app/middleware.ts:23-30 | with the exported api limiter, no 429 without Redis; with Redis, 429 exactly for API mutations the store refuses under "ratelimit:api", 100 per minute, for "global:" plus the client address |
| EdgeFilter.NoLimiterNeverThrottles | app/middleware.ts:26-30 | without a configured limiter the middleware never answers 429 |
| EdgeFilter.BearerAndAuthRoutesSkipOriginCheck | app/middleware.ts:38-46 | a mutation within the limit with a "Bearer " authorization or an /api/auth path passes, whatever its Origin |
| EdgeFilter.MissingOriginPasses | app/middleware.ts:49-55 | a mutation within the limit with no (or an empty) Origin header passes |
| EdgeFilter.MissingConfigurationPosture | app/middleware.ts:57-67 | with `NEXTAUTH_URL` unset, an origin-checked request gets 500 in production and passes elsewhere |
| EdgeFilter.OriginMustMatchConfiguredHost | app/middleware.ts:68-83 | with a parsable `NEXTAUTH_URL`, the request passes exactly when its Origin parses with the same host; an unparsable Origin gets 403 "Invalid Origin header", a foreign host 403 "Cross-origin request blocked" |
| Store.FirstOfUser | app/app/api/symbients/api-key/route.ts:25-27 | the lowest position holding a symbient of the user; none exactly when the user owns none |
| Store.WithId | app/app/api/posts/route.ts:19 | a position holding the symbient with that id, none exactly when no row has it |
| Store.OwnsNoneIffNotFound | app/app/api/symbients/route.ts:26-32 | the user's symbient count is zero exactly when the first-by-user lookup finds nothing |
| Auth.KeyOwner | app/lib/auth-middleware.ts:24-38 | the first symbient in list order whose non-null stored hash matches the key; none exactly when no symbient's hash matches |
| Auth.Authenticate | app/lib/auth-middleware.ts:7-44 | a session wins over any header; the key path only for "Bearer feytopai_" headers, yielding the first matching symbient's user and id; "Invalid API key" exactly when that path finds no match; "No authentication provided" exactly without session and key header |
| Auth.ActingSymbient | app/app/api/posts/route.ts:17-20 | for an API-key caller the symbient with that caller's symbient id, for a session caller the user's first symbient; the result is always a stored row |
| ApiKeys.AlphabetLayout | app/app/api/symbients/api-key/route.ts:8 | the 62-character alphabet is the digits, then A-Z, then a-z, in code-point order |
| ApiKeys.KeyFor | app/app/api/symbients/api-key/route.ts:7-15 | 41 characters, "feytopai_" then 32 characters of [0-9A-Za-z]; suffix character i has alphabet position `bytes[i] mod 62` |
| ApiKeys.GenerateApiKey | app/app/api/symbients/api-key/route.ts:7-15 | the character-by-character loop builds exactly the key `KeyFor` describes |
| ApiKeys.GeneratedKeyTakesApiKeyPath | app/app/api/symbients/api-key/route.ts:14 | every generated key, sent as "Bearer " plus the key, passes the API-key prefix test and is recovered intact by removing "Bearer " |
| ApiKeys.IssueKey | app/app/api/symbients/api-key/route.ts:17-52 | 401 for an unauthorized caller and 404 without a symbient, both without change; otherwise only the first symbient's stored hash changes and the plaintext key is returned |
| ApiKeys.RevokeKey | app/app/api/symbients/api-key/route.ts:54-83 | 401 and 404 as for issuing, without change; otherwise only the first symbient's stored hash becomes null |
| ApiKeys.IssuedKeyAuthenticates | app/app/api/symbients/api-key/route.ts:34-44 | a freshly issued key, presented as a bearer token, authenticates as the issuing user and their symbient when no earlier row matches it |
| ApiKeys.RevokedKeyNeverAuthenticates | app/app/api/symbients/api-key/route.ts:70-73 | after revocation no key authenticates as the revoked symbient |
| Symbients.CreationPatternIsTheStatedRule | app/app/api/symbients/route.ts:18-23 | the creation pattern accepts exactly the names its error message describes: 2 to 30 of [a-z0-9-], not starting or ending with "-" |
| Symbients.ValidNamesHaveNoSlash | app/app/api/symbients/route.ts:18 | a creatable agent name never contains "/" |
| Symbients.CreateSymbient | app/app/api/symbients/route.ts:7-63 | 401, then 400 for a bad name, then 400 when the user already has a symbient; success stores the name, user and description ("" as null); a P2002 insert failure gives 409 "You already have a symbient", any other gives 500 "Failed to create symbient" |
| Symbients.CreationLeavesExactlyOne | app/app/api/symbients/route.ts:25-46 | after a successful creation the user owns exactly one symbient |
| Symbients.CreationKeepsOnePerUser | app/app/api/symbients/route.ts:25-46 | creation preserves the one-symbient-per-account invariant |
| Symbients.NameCheckPrecedesExistenceCheck | app/app/api/symbients/route.ts:18-37 | an invalid name gets the name error even for a user who already has a symbient |
| Posts.ParseContentType | app/app/api/posts/route.ts:56-62 | a content type is recognised exactly when it is one of skill, memory, artifact, pattern, question |
| Posts.ContentTypeRoundTrip | app/app/api/posts/route.ts:56-62 | the enum and its request strings are inverse to each other |
| Posts.TextError | app/app/api/posts/route.ts:40-53 | the title and body pass exactly when both are non-blank and within 200 and 10000 characters; a bad title is reported before a bad body |
| Posts.MetadataError | app/app/api/posts/route.ts:55-80 | a given content type must name an enum value and a given link must parse as http or https; content type first, then the format message, then the protocol message |
| Posts.PostInputError | app/app/api/posts/route.ts:32-80 | a missing title or body gets "Title and body are required"; the body passes exactly when the title and body are non-blank and within 200 and 10000 characters, a given content type names an enum value and a given link parses as http or https; the first failing check in that order names the message |
| Posts.CreatePost | app/app/api/posts/route.ts:9-122 | 401, no-symbient 400, then a 400 carrying exactly the message `PostInputError` picks; success exactly when all hold, storing the acting symbient, "" link as null and "skill" as the default type |
| Posts.BlankTitleRefused | app/app/api/posts/route.ts:41-46 | a whitespace-only title is refused with the title message even when short |
| Posts.PageLimit | app/app/api/posts/route.ts:128 | page size is the requested one capped at 100, default 30 |
| Posts.PageOffset | app/app/api/posts/route.ts:129 | offset is the requested one floored at 0, default 0 |
| Posts.ClampingIsIdempotent | app/app/api/posts/route.ts:128-129 | sending back the page size and offset the server used changes neither |
| Posts.VotesBy | app/app/api/posts/route.ts:174-183 | the included votes are the caller's own, and there is one exactly when the caller voted |
| Posts.WithVoteStatus | app/app/api/posts/route.ts:187-192 | each listed post keeps its data and is flagged voted exactly for a signed-in caller who voted for it |
| Comments.CreateComment | app/app/api/comments/route.ts:7-60 | 401, then no-symbient 400, then 422 UNSUPPORTED_FIELD for a reply, then missing post id, then body, then 404 "Post not found"; a comment is appended exactly when all pass, carrying the post id and the acting symbient |
| Comments.MissingPostIdOutranksBody | app/app/api/comments/route.ts:38-42 | a missing post id is reported as such even when the body is also bad |
| Users.UsernameError | app/app/api/user/route.ts:54-80 | an absent, null or empty username is not checked; a given one is accepted exactly when it matches [a-z0-9-]+, has 2 to 30 characters and no other user holds it; the messages come in that order: characters, length, taken |
| Users.OwnUsernameIsNotTaken | app/app/api/user/route.ts:69-79 | with unique usernames, sending back one's own username is never refused as taken |
| Users.LinkError | app/app/api/user/route.ts:104-120 | a website with something other than white space must parse with protocol http: or https:; an unparsable one gets the format message, a parsed one with another protocol the protocol message |
| Users.ProfileFieldsError | app/app/api/user/route.ts:82-120 | accepted exactly when name is at most 50, about at most 500, website at most 200 characters and the website link is acceptable; the first failing check in that order names the message, the link's being `LinkError`'s |
| Users.ApplyUserFields | app/app/api/user/route.ts:122-131 | name, about and website are written with "" and null as null; username only when the key is present; id and GitHub login unchanged |
| Users.ApplyUserFieldsIsIdempotent | app/app/api/user/route.ts:125-130 | repeating the same update changes nothing further |
| Users.SymbientFieldsError | app/app/api/user/route.ts:137-182 | accepted exactly when a given agent name matches [a-z0-9-]+ with at most 50 characters, description at most 500, website at most 200 and a valid link; the first failing check in that order (characters before length) names the message |
| Users.MergeSymbient | app/app/api/user/route.ts:207-214 | an empty agent name keeps the old one; description and website keep theirs only when absent (null clears, "" is kept as ""); id, owner and key unchanged |
| Users.EmptyMergeKeepsSymbient | app/app/api/user/route.ts:210-212 | a symbient object that sets nothing leaves the symbient as it was |
| Users.MergeIsIdempotent | app/app/api/user/route.ts:210-212 | merging the same fields twice equals merging them once |
| Users.UpdateSymbient | app/app/api/user/route.ts:133-216 | field errors first; a rename to a name another of the user's symbients carries is refused; otherwise exactly the user's first symbient is merged, and nothing changes when they have none |
| Users.UpdateProfile | app/app/api/user/route.ts:43-226 | 401 without session; a username error, else a user-field error, is returned verbatim as 400 with everything unchanged; a missing user row gives 500; a symbient-stage failure is returned as `UpdateSymbient` reports it; success exactly when user and symbient stages pass, writing the user row and merging the symbient |
| Users.SymbientErrorKeepsUserUpdate | app/app/api/user/route.ts:122-182 | a symbient-field 400 comes after the user row is written, so the user update stays applied |
| Users.UpdateKeepsUsernamesUnique | app/app/api/user/route.ts:69-131 | a PATCH never gives two users the same username |
| Users.PatchAcceptsEveryCreatableName | app/app/api/user/route.ts:138-150 | every name creation accepts passes the PATCH check, which also admits "-a", a name creation refuses |
| Users.NameConflictNeedsTwoSymbients | app/app/api/user/route.ts:189-205 | the rename conflict can fire only for a user owning two or more symbients |
| Users.RenameNeverConflictsWithOneSymbient | app/app/api/user/route.ts:189-205 | while each account owns at most one symbient, the rename guard never fires, so valid symbient fields are always merged |

## Left out

- Non-string JSON values (numbers, booleans, objects) are outside the model: every body member is absent, null or a string. Depending on the member, the code answers 400 or 422 for them, or reaches the catch-all 500. A body that is not a JSON object is outside the model too: unparsable JSON makes `request.json()` throw, and a literal `null` makes the destructuring throw, so each handler's catch-all answers 500.
- Not in this code: a stored key prefix or a prefix-indexed key lookup. `authenticate` compares the key against every symbient with a non-null hash, in list order.
- Not in this code: a 41-character length short-circuit. Any header starting with `Bearer feytopai_` takes the key path.
- Not in this code: a `lastActive` update, a daily post quota or an in-process fallback limiter. Without Redis configuration every limiter is `null`, so nothing is limited.
- A comment in app/middleware.ts speaks of 60 mutations per minute. The general API limiter it uses is configured for 100 per minute, and the model follows the configuration.
- String lengths: JavaScript measures them in UTF-16 code units, the model in characters. The two differ only outside the Basic Multilingual Plane.
- Date arithmetic: it is modelled in integer milliseconds. Date strings, invalid dates and floating-point rounding are not modelled.
- TimeUtils.IsWithinEditWindow and TimeUtils.EditTimeRemaining: `windowMinutes` is an integer, while the TypeScript parameter is a `number` that could be fractional. The only caller, app/app/api/comments/[id]/route.ts, passes 15.
- `parseInt` on the pagination parameters: `PageLimit` and `PageOffset` take the parsed integer or nothing. NaN results are not modelled.
- Search, ordering, `take`/`skip`, and the `include`/`select` shapes of the posts listing are Prisma query semantics and are not modelled.
- The `catch`-all 500 answers for database failures are not modelled. The exceptions are the P2002 mapping and the missing user row in PATCH.
- GET /api/symbients and GET /api/user only look up and return rows; they are not modelled.
- bcrypt, next-auth session resolution and the Upstash sliding window are external. Each is an oracle parameter.
- WHATWG URL parsing is the `parseUrl` oracle. An unparsable `NEXTAUTH_URL` makes the middleware throw, and the model answers `Uncaught`.
- Pages, components, the skill file routes, app/lib/format-date.ts, app/lib/auth.ts and app/scripts/check-posts.ts are not part of this model.
- Users.UpdateKeepsUsernamesUnique: takes the user map's key as the user's id. The model is sequential: `PATCH` checks for a taken username itself (modelled by `UsernameError`), and only the database's unique index guards against two concurrent PATCHes.
- Users.RenameNeverConflictsWithOneSymbient: assumes the one-symbient-per-account invariant. The creation route enforces it, but the schema does not.
- ApiKeys.IssuedKeyAuthenticates: requires that no earlier symbient's hash also matches the new key. Under bcrypt this is a negligible-probability event that the model cannot exclude.

=== FILE: api_keys.dfy ===
/**
 API-key issue and revocation (app/app/api/symbients/api-key/route.ts).

 A key is "feytopai_" followed by 32 characters, character i being
 `chars[bytes[i] % 62]` for 32 random bytes. The random bytes and the bcrypt
 hash of the new key are inputs of the model.
 */
module ApiKeys {
  import opened Js
  import opened Store
  import opened Auth
  import opened Http

  newtype byte = x: int | 0 <= x < 256

  const Digits := "0123456789"
  const Upper := "ABCDEFGHIJKLMNOPQRSTUVWXYZ"
  const Lower := "abcdefghijklmnopqrstuvwxyz"

  /** The 62 characters a key suffix is drawn from, in the order of `generateApiKey`'s `chars`. */
  const KeyAlphabet := Digits + Upper + Lower

  /** Number of random bytes, hence of suffix characters. */
  const SuffixLength := 32

  const NoSymbientError := "No symbient found"

  predicate IsAlphanumeric(c: char) {
    ('0' <= c <= '9') || ('A' <= c <= 'Z') || ('a' <= c <= 'z')
  }

  lemma AlphabetLayout()
    ensures |KeyAlphabet| == 62
    ensures forall k | 0 <= k < 10 :: KeyAlphabet[k] as int == 48 + k
    ensures forall k | 10 <= k < 36 :: KeyAlphabet[k] as int == 65 + (k - 10)
    ensures forall k | 36 <= k < 62 :: KeyAlphabet[k] as int == 97 + (k - 36)
  {
    assert forall k | 0 <= k < 10 :: Digits[k] as int == 48 + k;
    assert forall k | 0 <= k < 26 :: Upper[k] as int == 65 + k;
    assert forall k | 0 <= k < 26 :: Lower[k] as int == 97 + k;
  }

  /** The position of an alphanumeric character in the key alphabet. */
  function AlphabetIndex(c: char): (k: nat)
    requires IsAlphanumeric(c)
    ensures k < |KeyAlphabet| && KeyAlphabet[k] == c
  {
    AlphabetLayout();
    if c <= '9' then c as int - 48
    else if c <= 'Z' then c as int - 65 + 10
    else c as int - 97 + 36
  }

  /** Every alphabet character is alphanumeric and sits at a single position. */
  lemma AlphabetIsAlphanumeric(k: int)
    requires 0 <= k < |KeyAlphabet|
    ensures IsAlphanumeric(KeyAlphabet[k]) && AlphabetIndex(KeyAlphabet[k]) == k
  {
    AlphabetLayout();
  }

  /** The random part of a key: character i is the alphabet character at position `bytes[i] mod 62`. */
  function KeySuffix(bytes: seq<byte>): (suffix: string)
    requires |bytes| == SuffixLength
    ensures |suffix| == SuffixLength
  {
    seq(SuffixLength, i requires 0 <= i < SuffixLength => KeyAlphabet[bytes[i] as int % 62])
  }

  /** The key `generateApiKey` builds from the given random bytes. */
  function KeyFor(bytes: seq<byte>): (key: string)
    requires |bytes| == SuffixLength
    ensures |key| == |ApiKeyPrefix| + SuffixLength == 41
    ensures StartsWith(key, ApiKeyPrefix)
    ensures forall i | |ApiKeyPrefix| <= i < |key| :: IsAlphanumeric(key[i])
    ensures forall i | 0 <= i < SuffixLength ::
      IsAlphanumeric(key[|ApiKeyPrefix| + i])
      && AlphabetIndex(key[|ApiKeyPrefix| + i]) == bytes[i] as int % 62
  {
    var suffix := KeySuffix(bytes);
    forall i | 0 <= i < SuffixLength
      ensures IsAlphanumeric(suffix[i]) && AlphabetIndex(suffix[i]) == bytes[i] as int % 62
    {
      AlphabetIsAlphanumeric(bytes[i] as int % 62);
    }
    assert (ApiKeyPrefix + suffix)[..|ApiKeyPrefix|] == ApiKeyPrefix;
    ApiKeyPrefix + suffix
  }

  /** `generateApiKey`: its character-by-character loop. */
  method GenerateApiKey(bytes: seq<byte>) returns (key: string)
    requires |bytes| == SuffixLength
    ensures key == KeyFor(bytes)
  {
    var suffix := "";
    var i := 0;
    while i < SuffixLength
      invariant 0 <= i <= SuffixLength
      invariant |suffix| == i
      invariant forall j | 0 <= j < i :: suffix[j] == KeyAlphabet[bytes[j] as int % 62]
    {
      suffix := suffix + [KeyAlphabet[bytes[i] as int % 62]];
      i := i + 1;
    }
    assert suffix == KeySuffix(bytes);
    key := ApiKeyPrefix + suffix;
  }

  /** A generated key, sent as "Bearer <key>", takes the API-key path of `authenticate` with itself as the key. */
  lemma GeneratedKeyTakesApiKeyPath(bytes: seq<byte>)
    requires |bytes| == SuffixLength
    ensures HasApiKeyHeader(Some(BearerScheme + KeyFor(bytes)))
    ensures (BearerScheme + KeyFor(bytes))[|BearerScheme|..] == KeyFor(bytes)
  {
    var key := KeyFor(bytes);
    assert key[..|ApiKeyPrefix|] == ApiKeyPrefix;
    assert (BearerScheme + key)[..|BearerScheme + ApiKeyPrefix|] == BearerScheme + key[..|ApiKeyPrefix|];
  }

  /**
   POST: replace the caller's symbient's stored hash with the hash of a fresh
   key and answer with the plaintext key. Answers 401 for an unauthenticated
   caller and 404 when the caller has no symbient, leaving the store as it was.
   */
  function IssueKey(auth: Identity, symbients: seq<Symbient>, bytes: seq<byte>, hashed: string)
    : (r: (Reply<string>, seq<Symbient>))
    requires |bytes| == SuffixLength
    ensures auth.Unauthorized? ==> r == (Error(401, auth.error), symbients)
    ensures !auth.Unauthorized? && FirstOfUser(symbients, auth.userId).None? ==>
      r == (Error(404, NoSymbientError), symbients)
    ensures r.0.Ok? <==> !auth.Unauthorized? && FirstOfUser(symbients, auth.userId).Some?
    ensures r.0.Ok? ==>
      && r.0.value == KeyFor(bytes)
      && var i := FirstOfUser(symbients, auth.userId).value;
      && |r.1| == |symbients|
      && r.1[i] == symbients[i].(apiKey := Some(hashed))
      && forall j | 0 <= j < |symbients| && j != i :: r.1[j] == symbients[j]
  {
    if auth.Unauthorized? then (Error(401, auth.error), symbients)
    else
      match FirstOfUser(symbients, auth.userId)
      case None => (Error(404, NoSymbientError), symbients)
      case Some(i) =>
        var apiKey := KeyFor(bytes);
        (Ok(apiKey), symbients[i := symbients[i].(apiKey := Some(hashed))])
  }

  /**
   DELETE: set the caller's symbient's stored hash to null. Same 401/404
   answers as POST, with no change to the store.
   */
  function RevokeKey(auth: Identity, symbients: seq<Symbient>): (r: (Reply<bool>, seq<Symbient>))
    ensures auth.Unauthorized? ==> r == (Error(401, auth.error), symbients)
    ensures !auth.Unauthorized? && FirstOfUser(symbients, auth.userId).None? ==>
      r == (Error(404, NoSymbientError), symbients)
    ensures r.0.Ok? <==> !auth.Unauthorized? && FirstOfUser(symbients, auth.userId).Some?
    ensures r.0.Ok? ==>
      && r.0.value
      && var i := FirstOfUser(symbients, auth.userId).value;
      && |r.1| == |symbients|
      && r.1[i] == symbients[i].(apiKey := None)
      && forall j | 0 <= j < |symbients| && j != i :: r.1[j] == symbients[j]
  {
    if auth.Unauthorized? then (Error(401, auth.error), symbients)
    else
      match FirstOfUser(symbients, auth.userId)
      case None => (Error(404, NoSymbientError), symbients)
      case Some(i) => (Ok(true), symbients[i := symbients[i].(apiKey := None)])
  }

  /**
   Round trip: once a key is issued (and bcrypt accepts it against its own
   hash), a request carrying it and no session resolves to the symbient it
   was issued for, provided no symbient earlier in the list also accepts it.
   */
  lemma IssuedKeyAuthenticates(
    auth: Identity, symbients: seq<Symbient>, bytes: seq<byte>, hashed: string,
    session: Option<string>, matches: (string, string) -> bool)
    requires |bytes| == SuffixLength
    requires !auth.Unauthorized? && FirstOfUser(symbients, auth.userId).Some?
    requires |hashed| > 0 && matches(KeyFor(bytes), hashed)
    requires forall j | 0 <= j < FirstOfUser(symbients, auth.userId).value ::
      !KeyOpens(symbients[j], KeyFor(bytes), matches)
    requires !Present(session)
    ensures
      var i := FirstOfUser(symbients, auth.userId).value;
      var issued := IssueKey(auth, symbients, bytes, hashed);
      Authenticate(session, Some(BearerScheme + issued.0.value), issued.1, matches)
        == ApiKeyAuth(symbients[i].userId, symbients[i].id)
  {
    var i := FirstOfUser(symbients, auth.userId).value;
    var issued := IssueKey(auth, symbients, bytes, hashed);
    var key := KeyFor(bytes);
    GeneratedKeyTakesApiKeyPath(bytes);
    assert IsFirstOpened(issued.1, i, key, matches);
    var id := Authenticate(session, Some(BearerScheme + key), issued.1, matches);
    assert id.ApiKeyAuth?;
    var k :| IsFirstOpened(issued.1, k, key, matches)
             && issued.1[k].id == id.symbientId && issued.1[k].userId == id.userId;
  }

  /** After revocation, no header of any kind authenticates as the revoked symbient. */
  lemma RevokedKeyNeverAuthenticates(
    auth: Identity, symbients: seq<Symbient>,
    session: Option<string>, authorization: Option<string>, matches: (string, string) -> bool)
    requires UniqueIds(symbients)
    requires !auth.Unauthorized? && FirstOfUser(symbients, auth.userId).Some?
    ensures
      var i := FirstOfUser(symbients, auth.userId).value;
      var id := Authenticate(session, authorization, RevokeKey(auth, symbients).1, matches);
      !(id.ApiKeyAuth? && id.symbientId == symbients[i].id)
  {
    var i := FirstOfUser(symbients, auth.userId).value;
    var after := RevokeKey(auth, symbients).1;
    var id := Authenticate(session, authorization, after, matches);
    if id.ApiKeyAuth? {
      var k :| IsFirstOpened(after, k, authorization.value[|BearerScheme|..], matches)
               && after[k].id == id.symbientId && after[k].userId == id.userId;
      assert k != i;
      assert after[k] == symbients[k];
    }
  }
}

=== FILE: auth.dfy ===
/**
 Credential resolution (`authenticate` in app/lib/auth-middleware.ts) and the
 choice of the acting symbient that the post and comment handlers make from
 its result.

 The session store and bcrypt are oracles: `session` is the user id the
 session cookie resolves to (if any) and `matches(key, hash)` is
 `bcrypt.compare(key, hash)`.
 */
module Auth {
  import opened Js
  import opened Store
  import opened Http

  const ApiKeyPrefix := "feytopai_"

  const NoAuthError := "No authentication provided"
  const InvalidKeyError := "Invalid API key"

  /** The resolved caller of one request. A session caller has no symbient id. */
  datatype Identity =
    | SessionAuth(userId: string)
    | ApiKeyAuth(userId: string, symbientId: string)
    | Unauthorized(error: string)

  /** Whether `key` opens the symbient's stored credential: it must be set (non-null, non-empty) and the hash must accept it. */
  predicate KeyOpens(s: Symbient, key: string, matches: (string, string) -> bool) {
    Present(s.apiKey) && matches(key, s.apiKey.value)
  }

  /** Symbient `i` is the first one, in list order, that `key` opens. */
  predicate IsFirstOpened(symbients: seq<Symbient>, i: int, key: string, matches: (string, string) -> bool) {
    && 0 <= i < |symbients|
    && KeyOpens(symbients[i], key, matches)
    && forall j | 0 <= j < i :: !KeyOpens(symbients[j], key, matches)
  }

  /** Whether the header selects the API-key path. */
  predicate HasApiKeyHeader(authorization: Option<string>) {
    authorization.Some? && StartsWith(authorization.value, BearerScheme + ApiKeyPrefix)
  }

  /** The loop over the symbients with a non-null key, stopping at the first whose hash matches. */
  function KeyOwner(symbients: seq<Symbient>, key: string, matches: (string, string) -> bool): (r: Option<nat>)
    ensures r.Some? ==> IsFirstOpened(symbients, r.value, key, matches)
    ensures r.None? ==> forall j | 0 <= j < |symbients| :: !KeyOpens(symbients[j], key, matches)
  {
    FirstWhere(symbients, (s: Symbient) => KeyOpens(s, key, matches))
  }

  lemma PrefixOfPrefix(s: string, p: string, q: string)
    requires StartsWith(s, p + q)
    ensures StartsWith(s, p)
  {
    assert s[..|p|] == s[..|p + q|][..|p|];
  }

  /**
   `authenticate`: a session wins; otherwise a header starting with
   "Bearer feytopai_" is looked up, its key being the header without the
   "Bearer " scheme; otherwise the caller is unauthorized.
   */
  function Authenticate(
    session: Option<string>,
    authorization: Option<string>,
    symbients: seq<Symbient>,
    matches: (string, string) -> bool): (id: Identity)
    ensures Present(session) ==> id == SessionAuth(session.value)
    ensures id.SessionAuth? ==> Present(session)
    ensures id.ApiKeyAuth? ==>
      && !Present(session) && HasApiKeyHeader(authorization)
      && exists i :: IsFirstOpened(symbients, i, authorization.value[|BearerScheme|..], matches)
                     && symbients[i].id == id.symbientId && symbients[i].userId == id.userId
    ensures !Present(session) && HasApiKeyHeader(authorization)
            && (exists i | 0 <= i < |symbients| :: KeyOpens(symbients[i], authorization.value[|BearerScheme|..], matches))
            ==> id.ApiKeyAuth?
    ensures id == Unauthorized(InvalidKeyError) <==>
      && !Present(session) && HasApiKeyHeader(authorization)
      && forall i | 0 <= i < |symbients| :: !KeyOpens(symbients[i], authorization.value[|BearerScheme|..], matches)
    ensures id == Unauthorized(NoAuthError) <==> !Present(session) && !HasApiKeyHeader(authorization)
  {
    if Present(session) then
      SessionAuth(session.value)
    else if HasApiKeyHeader(authorization) then
      var header := authorization.value;
      PrefixOfPrefix(header, BearerScheme, ApiKeyPrefix);
      ReplacePrefixDropsIt(header, BearerScheme);
      var apiKey := ReplaceFirst(header, BearerScheme, "");
      match KeyOwner(symbients, apiKey, matches)
      case Some(i) => ApiKeyAuth(symbients[i].userId, symbients[i].id)
      case None => Unauthorized(InvalidKeyError)
    else
      Unauthorized(NoAuthError)
  }

  /**
   The symbient a post or comment is written as:
   `auth.symbientId ? findUnique({ id: auth.symbientId }) : findFirst({ userId: auth.userId })`.
   Only called once the caller is known to be authenticated.
   */
  function ActingSymbient(auth: Identity, symbients: seq<Symbient>): (r: Option<Symbient>)
    requires !auth.Unauthorized?
    ensures auth.ApiKeyAuth? && |auth.symbientId| > 0 ==>
      (r.Some? <==> exists i | 0 <= i < |symbients| :: symbients[i].id == auth.symbientId)
    ensures auth.ApiKeyAuth? && |auth.symbientId| > 0 && r.Some? ==> r.value.id == auth.symbientId
    ensures (auth.SessionAuth? || |auth.symbientId| == 0) ==>
      (r.Some? <==> exists i | 0 <= i < |symbients| :: symbients[i].userId == auth.userId)
    ensures (auth.SessionAuth? || |auth.symbientId| == 0) && r.Some? ==>
      r.value.userId == auth.userId && r == Some(symbients[FirstOfUser(symbients, auth.userId).value])
    ensures r.Some? ==> r.value in symbients
  {
    var found :=
      if auth.ApiKeyAuth? && |auth.symbientId| > 0 then WithId(symbients, auth.symbientId)
      else FirstOfUser(symbients, auth.userId);
    match found
    case Some(i) => Some(symbients[i])
    case None => None
  }
}

=== FILE: comments.dfy ===
/**
 Comment creation (POST in app/app/api/comments/route.ts): 401, then the
 no-symbient 400, then 422 for a thread reply, then the 400 for a missing post
 id or a bad body, then 404 for an unknown post.
 */
module Comments {
  import opened Js
  import opened Store
  import opened Auth
  import opened Http
  import Posts

  datatype Comment = Comment(id: string, postId: string, symbientId: string, body: string)

  /** The members of the JSON body that POST reads. */
  datatype CommentInput = CommentInput(postId: Field, body: Field, parentId: Field)

  const MaxCommentLength := 10000

  const ThreadingError := "Threaded comments not yet supported"
  const UnsupportedFieldCode := "UNSUPPORTED_FIELD"
  const MissingPostIdError := "Post ID is required"
  const BodyLengthError := "Comment body must be 1-10000 characters"
  const PostNotFoundError := "Post not found"

  /** A comment body is something other than whitespace, at most 10000 characters long. */
  predicate ValidCommentBody(body: Field) {
    Truthy(body) && !AllWhitespace(body.s) && |body.s| <= MaxCommentLength
  }

  predicate PostExists(posts: seq<Posts.Post>, postId: string) {
    exists i | 0 <= i < |posts| :: posts[i].id == postId
  }

  /** POST /api/comments. */
  function CreateComment(
    auth: Identity, symbients: seq<Symbient>, posts: seq<Posts.Post>,
    input: CommentInput, comments: seq<Comment>, newId: string)
    : (r: (Reply<Comment>, seq<Comment>))
    ensures r.0.Fail? ==> r.1 == comments
    ensures auth.Unauthorized? ==> r.0 == Error(401, auth.error)
    ensures !auth.Unauthorized? && ActingSymbient(auth, symbients).None? ==> r.0 == Error(400, Posts.NoSymbientError)
    ensures !auth.Unauthorized? && ActingSymbient(auth, symbients).Some? && Truthy(input.parentId) ==>
      r.0 == Fail(422, ThreadingError, Some(UnsupportedFieldCode))
    ensures !auth.Unauthorized? && ActingSymbient(auth, symbients).Some? && !Truthy(input.parentId)
            && !Truthy(input.postId) ==>
      r.0 == Error(400, MissingPostIdError)
    ensures !auth.Unauthorized? && ActingSymbient(auth, symbients).Some? && !Truthy(input.parentId)
            && Truthy(input.postId) && !ValidCommentBody(input.body) ==>
      r.0 == Error(400, BodyLengthError)
    ensures r.0.Fail? && r.0.status == 404 <==>
      && !auth.Unauthorized? && ActingSymbient(auth, symbients).Some? && !Truthy(input.parentId)
      && Truthy(input.postId) && ValidCommentBody(input.body) && !PostExists(posts, input.postId.s)
    ensures !auth.Unauthorized? && ActingSymbient(auth, symbients).Some? && !Truthy(input.parentId)
            && Truthy(input.postId) && ValidCommentBody(input.body) && !PostExists(posts, input.postId.s) ==>
      r.0 == Error(404, PostNotFoundError)
    ensures r.0.Ok? <==>
      && !auth.Unauthorized? && ActingSymbient(auth, symbients).Some? && !Truthy(input.parentId)
      && Truthy(input.postId) && ValidCommentBody(input.body) && PostExists(posts, input.postId.s)
    ensures r.0.Ok? ==>
      && r.1 == comments + [r.0.value]
      && r.0.value == Comment(newId, input.postId.s, ActingSymbient(auth, symbients).value.id, input.body.s)
  {
    if auth.Unauthorized? then (Error(401, auth.error), comments)
    else
      match ActingSymbient(auth, symbients)
      case None => (Error(400, Posts.NoSymbientError), comments)
      case Some(symbient) =>
        if Truthy(input.parentId) then (Fail(422, ThreadingError, Some(UnsupportedFieldCode)), comments)
        else if !Truthy(input.postId) || !Truthy(input.body) || |Trim(input.body.s)| == 0
                || |input.body.s| > MaxCommentLength then
          (Error(400, if !Truthy(input.postId) then MissingPostIdError else BodyLengthError), comments)
        else if !(exists i | 0 <= i < |posts| :: posts[i].id == input.postId.s) then
          (Error(404, PostNotFoundError), comments)
        else
          var comment := Comment(newId, input.postId.s, symbient.id, input.body.s);
          (Ok(comment), comments + [comment])
  }

  /** A missing post id is reported as such even when the body is also bad. */
  lemma MissingPostIdOutranksBody(
    auth: Identity, symbients: seq<Symbient>, posts: seq<Posts.Post>,
    input: CommentInput, comments: seq<Comment>, newId: string)
    requires !auth.Unauthorized? && ActingSymbient(auth, symbients).Some?
    requires !Truthy(input.parentId) && !Truthy(input.postId) && !ValidCommentBody(input.body)
    ensures CreateComment(auth, symbients, posts, input, comments, newId).0 == Error(400, MissingPostIdError)
  {
  }
}

=== FILE: edge_filter.dfy ===
/**
 The edge middleware (app/middleware.ts): a global per-address limit on API
 mutations, then an Origin check (the origin of section 7 of RFC 6454) that
 protects cookie-authenticated mutations from cross-site request forgery.

 WHATWG URL parsing is an oracle `parseUrl` giving the protocol and host of an
 absolute URL, or nothing when `new URL` would throw.
 */
module EdgeFilter {
  import opened Js
  import opened RateLimit
  import opened Http

  const MutationMethods: set<string> := {"POST", "PUT", "PATCH", "DELETE"}

  const ApiPrefix := "/api"
  const AuthRoutesPrefix := "/api/auth"
  const ProductionEnv := "production"

  const MisconfiguredError := "Server misconfiguration"
  const CrossOriginError := "Cross-origin request blocked"
  const InvalidOriginError := "Invalid Origin header"

  /** The parts of a request the middleware reads; `verb` is the HTTP method. */
  datatype Request = Request(
    verb: string,
    path: string,
    authorization: Option<string>,
    origin: Option<string>,
    forwardedFor: Option<string>,
    realIp: Option<string>)

  /** `NEXTAUTH_URL` and `NODE_ENV`. */
  datatype Env = Env(nextAuthUrl: Option<string>, nodeEnv: Option<string>)

  /**
   What the middleware does with a request: hand it on, answer 429, answer
   with an error status, or throw (an unparsable `NEXTAUTH_URL` makes
   `new URL` throw outside any `try`).
   */
  datatype Decision =
    | Next
    | Throttle(response: Throttled)
    | Reject(status: nat, error: string)
    | Uncaught

  predicate IsMutation(req: Request) {
    req.verb in MutationMethods
  }

  predicate IsApiRequest(req: Request) {
    StartsWith(req.path, ApiPrefix)
  }

  predicate HasBearer(req: Request) {
    req.authorization.Some? && StartsWith(req.authorization.value, BearerScheme)
  }

  /** The key of the global limit: "global:" and the client address. */
  function GlobalKey(req: Request): string {
    "global:" + GetIp(req.forwardedFor, req.realIp)
  }

  /** The API mutation passes the global limit. */
  predicate WithinGlobalLimit(req: Request, apiLimiter: Option<Limiter>) {
    CheckRateLimit(apiLimiter, GlobalKey(req)).Allowed?
  }

  /** The request gets as far as the Origin check: a cookie-style API mutation that carries an Origin. */
  predicate ReachesOriginCheck(req: Request, apiLimiter: Option<Limiter>) {
    && IsApiRequest(req) && IsMutation(req) && WithinGlobalLimit(req, apiLimiter)
    && !HasBearer(req) && !StartsWith(req.path, AuthRoutesPrefix)
    && Present(req.origin)
  }

  /** `middleware`. */
  function Middleware(
    req: Request, env: Env, apiLimiter: Option<Limiter>, nowMs: int,
    parseUrl: string -> Option<Url>): (d: Decision)
    ensures !IsApiRequest(req) ==> d == Next
    ensures d.Throttle? <==>
      IsApiRequest(req) && IsMutation(req) && !WithinGlobalLimit(req, apiLimiter)
    ensures d.Throttle? ==>
      d.response == TooManyRequests(CheckRateLimit(apiLimiter, GlobalKey(req)).reset, nowMs)
    ensures d.Reject? || d.Uncaught? ==> ReachesOriginCheck(req, apiLimiter)
    ensures d.Reject? ==> d.status == 403 || d.status == 500
    ensures d.Uncaught? <==>
      ReachesOriginCheck(req, apiLimiter) && Present(env.nextAuthUrl) && parseUrl(env.nextAuthUrl.value).None?
  {
    if !StartsWith(req.path, ApiPrefix) then Next
    else
      var isMutation := req.verb in MutationMethods;
      var rl := if isMutation then CheckRateLimit(apiLimiter, GlobalKey(req)) else Allowed;
      if rl.Denied? then Throttle(TooManyRequests(rl.reset, nowMs))
      else if !isMutation then Next
      else if req.authorization.Some? && StartsWith(req.authorization.value, BearerScheme) then Next
      else if StartsWith(req.path, AuthRoutesPrefix) then Next
      else if !Present(req.origin) then Next
      else if !Present(env.nextAuthUrl) then
        if env.nodeEnv == Some(ProductionEnv) then Reject(500, MisconfiguredError) else Next
      else
        match parseUrl(env.nextAuthUrl.value)
        case None => Uncaught
        case Some(allowed) =>
          match parseUrl(req.origin.value)
          case None => Reject(403, InvalidOriginError)
          case Some(requestUrl) =>
            if requestUrl.host != allowed.host then Reject(403, CrossOriginError) else Next
  }

  /** Any method outside POST, PUT, PATCH and DELETE passes, on /api or not, whatever the limiter, headers and configuration. */
  lemma ReadsAlwaysPass(
    req: Request, env: Env, apiLimiter: Option<Limiter>, nowMs: int, parseUrl: string -> Option<Url>)
    requires !IsMutation(req)
    ensures Middleware(req, env, apiLimiter, nowMs, parseUrl) == Next
  {
  }

  /** A mutation over its global budget is answered 429 before any CSRF logic, whatever its headers and the configuration. */
  lemma GlobalLimitComesFirst(
    req: Request, env: Env, apiLimiter: Option<Limiter>, nowMs: int, parseUrl: string -> Option<Url>)
    requires IsApiRequest(req) && IsMutation(req)
    requires apiLimiter.Some? && !apiLimiter.value.limit(GlobalKey(req)).success
    ensures Middleware(req, env, apiLimiter, nowMs, parseUrl)
      == Throttle(TooManyRequests(apiLimiter.value.limit(GlobalKey(req)).reset, nowMs))
  {
  }

  /** Without Redis the global limit never fires. */
  lemma NoLimiterNeverThrottles(req: Request, env: Env, nowMs: int, parseUrl: string -> Option<Url>)
    ensures !Middleware(req, env, None, nowMs, parseUrl).Throttle?
  {
  }

  /** With the exported api limiter: Redis unconfigured never throttles; configured, the store's verdict for "global:" plus the client address under "ratelimit:api", 100 per minute, decides. */
  lemma ApiLimiterDecidesThrottling(
    req: Request, env: Env, redisUrl: Option<string>, redisToken: Option<string>, backend: Backend,
    nowMs: int, parseUrl: string -> Option<Url>)
    ensures var d := Middleware(req, env, LimiterFor(ApiLimiter, redisUrl, redisToken, backend), nowMs, parseUrl);
      && (!IsConfigured(redisUrl, redisToken) ==> !d.Throttle?)
      && (IsConfigured(redisUrl, redisToken) ==>
            (d.Throttle? <==>
              IsApiRequest(req) && IsMutation(req) && !backend("ratelimit:api", 100, 60000, GlobalKey(req)).success))
  {
    LimiterTable(redisUrl, redisToken, backend);
  }

  /** Bearer-authenticated mutations and mutations of the auth routes skip the Origin check. */
  lemma BearerAndAuthRoutesSkipOriginCheck(
    req: Request, env: Env, apiLimiter: Option<Limiter>, nowMs: int, parseUrl: string -> Option<Url>)
    requires WithinGlobalLimit(req, apiLimiter)
    requires HasBearer(req) || StartsWith(req.path, AuthRoutesPrefix)
    ensures Middleware(req, env, apiLimiter, nowMs, parseUrl) == Next
  {
  }

  /** A mutation without an Origin header (or with an empty one) passes. */
  lemma MissingOriginPasses(
    req: Request, env: Env, apiLimiter: Option<Limiter>, nowMs: int, parseUrl: string -> Option<Url>)
    requires WithinGlobalLimit(req, apiLimiter)
    requires !Present(req.origin)
    ensures Middleware(req, env, apiLimiter, nowMs, parseUrl) == Next
  {
  }

  /** Without `NEXTAUTH_URL`, the Origin check fails closed (500) in production and open elsewhere. */
  lemma MissingConfigurationPosture(
    req: Request, env: Env, apiLimiter: Option<Limiter>, nowMs: int, parseUrl: string -> Option<Url>)
    requires ReachesOriginCheck(req, apiLimiter)
    requires !Present(env.nextAuthUrl)
    ensures Middleware(req, env, apiLimiter, nowMs, parseUrl)
      == (if env.nodeEnv == Some(ProductionEnv) then Reject(500, MisconfiguredError) else Next)
  {
  }

  /**
   With a parsable `NEXTAUTH_URL`, a cookie-style mutation passes exactly when
   its Origin parses and names the same host; an unparsable Origin and a
   foreign host get distinct 403 answers.
   */
  lemma OriginMustMatchConfiguredHost(
    req: Request, env: Env, apiLimiter: Option<Limiter>, nowMs: int, parseUrl: string -> Option<Url>)
    requires ReachesOriginCheck(req, apiLimiter)
    requires Present(env.nextAuthUrl) && parseUrl(env.nextAuthUrl.value).Some?
    ensures var d := Middleware(req, env, apiLimiter, nowMs, parseUrl);
      var allowedHost := parseUrl(env.nextAuthUrl.value).value.host;
      && (parseUrl(req.origin.value).None? ==> d == Reject(403, InvalidOriginError))
      && (parseUrl(req.origin.value).Some? && parseUrl(req.origin.value).value.host != allowedHost ==>
            d == Reject(403, CrossOriginError))
      && (d == Next <==> parseUrl(req.origin.value).Some? && parseUrl(req.origin.value).value.host == allowedHost)
  {
  }
}

=== FILE: format_author.dfy ===
/**
 The author byline of a post or comment (app/lib/format-author.ts): the human
 and the agent name joined by "/", agent first when the content came in
 through an API key.
 */
module AuthorFormat {
  import opened Js

  /** The user columns the byline reads. */
  datatype Author = Author(name: Option<string>, username: Option<string>, githubLogin: Option<string>)

  const ApiKeyVia := "api_key"

  /** `name || username || githubLogin || "unknown"`: the first of them that is non-null and non-empty. */
  function HumanName(user: Author): (h: string)
    ensures |h| > 0
    ensures Present(user.name) ==> h == user.name.value
    ensures !Present(user.name) && Present(user.username) ==> h == user.username.value
    ensures !Present(user.name) && !Present(user.username) && Present(user.githubLogin) ==> h == user.githubLogin.value
    ensures !Present(user.name) && !Present(user.username) && !Present(user.githubLogin) ==> h == "unknown"
  {
    if Present(user.name) then user.name.value
    else if Present(user.username) then user.username.value
    else if Present(user.githubLogin) then user.githubLogin.value
    else "unknown"
  }

  /** `formatAuthor`: `authoredVia` null, absent or anything but "api_key" gives the human-first order. */
  function FormatAuthor(user: Author, agentName: string, authoredVia: Option<string>): (r: string)
    ensures |r| == |agentName| + |HumanName(user)| + 1
    ensures authoredVia == Some(ApiKeyVia) ==> StartsWith(r, agentName) && r[|agentName|] == '/'
    ensures authoredVia != Some(ApiKeyVia) ==> StartsWith(r, HumanName(user)) && r[|HumanName(user)|] == '/'
  {
    var humanName := HumanName(user);
    if authoredVia == Some(ApiKeyVia) then
      assert (agentName + "/" + humanName)[..|agentName|] == agentName;
      agentName + "/" + humanName
    else
      assert (humanName + "/" + agentName)[..|humanName|] == humanName;
      humanName + "/" + agentName
  }

  /** The two bylines for the same inputs are the two orderings of the same pair. */
  lemma BylinesAreSwaps(user: Author, agentName: string, other: Option<string>)
    requires other != Some(ApiKeyVia)
    ensures var h := HumanName(user);
      && FormatAuthor(user, agentName, Some(ApiKeyVia)) == agentName + "/" + h
      && FormatAuthor(user, agentName, other) == h + "/" + agentName
  {
  }

  /**
   An agent name without "/" (every name the symbient grammar admits) can be
   read back from either byline: before the first "/" in the agent-first
   order, as the characters after the last "/" in the human-first order.
   */
  lemma AgentNameRecoverable(user: Author, agentName: string, authoredVia: Option<string>)
    requires '/' !in agentName
    ensures var r := FormatAuthor(user, agentName, authoredVia);
      authoredVia == Some(ApiKeyVia) ==> BeforeFirst(r, '/') == agentName
    ensures var r := FormatAuthor(user, agentName, authoredVia);
      authoredVia != Some(ApiKeyVia) ==>
        r[|r| - |agentName|..] == agentName && r[|r| - |agentName| - 1] == '/'
  {
    var r := FormatAuthor(user, agentName, authoredVia);
    if authoredVia == Some(ApiKeyVia) {
      var b := BeforeFirst(r, '/');
      assert r[..|agentName|] == agentName;
      assert b == r[..|b|];
    } else {
      var h := HumanName(user);
      assert r == h + "/" + agentName;
      assert r[|r| - |agentName|..] == agentName;
    }
  }
}

=== FILE: http.dfy ===
/**
 The JSON answers of the route handlers: either the success payload or an
 error object `{ error, code? }` sent with an HTTP status.
 */
module Http {
  import opened Js

  datatype Reply<+T> = Ok(value: T) | Fail(status: nat, error: string, code: Option<string>)

  /** What `new URL(s)` yields for an absolute URL; URL parsing itself is an oracle `string -> Option<Url>`. */
  datatype Url = Url(protocol: string, host: string)

  /** The `Bearer` authorization scheme with its separating space (section 2.1 of RFC 6750). */
  const BearerScheme := "Bearer "

  /** The protocols the handlers accept for user-supplied links. */
  predicate IsWebProtocol(protocol: string) {
    protocol == "http:" || protocol == "https:"
  }

  /** An error answer without a machine-readable `code`. */
  function Error<T>(status: nat, error: string): (r: Reply<T>)
    ensures r.Fail? && r.status == status && r.error == error && r.code.None?
  {
    Fail(status, error, None)
  }
}

=== FILE: js.dfy ===
/**
 The parts of JavaScript string and value semantics that the request handlers
 depend on: optional values, the JSON members of a request body, truthiness,
 `String.prototype.trim`, `startsWith`, `replace` with a string pattern, and the
 first element of `split`.

 Strings are sequences of Unicode scalar values; JavaScript counts UTF-16 code
 units, which differs only for characters outside the Basic Multilingual Plane.
 */
module Js {

  /** A value that may be `null`/`undefined` (a nullable database column, an absent header). */
  datatype Option<+T> = None | Some(value: T)

  /** A string-valued member of a parsed JSON request body: absent, `null`, or a string. */
  datatype Field = Undefined | Null | Str(s: string)

  /** JavaScript truthiness of a string-valued body member: only a non-empty string is truthy. */
  predicate Truthy(f: Field) {
    f.Str? && |f.s| > 0
  }

  /** JavaScript truthiness of a nullable string (a header value, a column, an environment variable). */
  predicate Present(o: Option<string>) {
    o.Some? && |o.value| > 0
  }

  /** `f || null`: the empty string, `null` and `undefined` all become `null`. */
  function OrNull(f: Field): (r: Option<string>)
    ensures r.Some? <==> Truthy(f)
    ensures r.Some? ==> |r.value| > 0 && r.value == f.s
  {
    if Truthy(f) then Some(f.s) else None
  }

  /** `f === undefined ? keep : f`, with `null` mapped to a missing value. */
  function Overwrite(f: Field, keep: Option<string>): (r: Option<string>)
    ensures f.Undefined? ==> r == keep
    ensures f.Null? ==> r.None?
    ensures f.Str? ==> r == Some(f.s)
  {
    match f
    case Undefined => keep
    case Null => None
    case Str(s) => Some(s)
  }

  /** The characters ECMAScript's `trim` removes: WhiteSpace and LineTerminator. */
  predicate IsWhitespace(c: char) {
    || c == '\t' || c == '\n' || c == '\U{000B}' || c == '\U{000C}' || c == '\r'
    || c == ' ' || c == '\U{00A0}' || c == '\U{1680}'
    || ('\U{2000}' <= c <= '\U{200A}')
    || c == '\U{2028}' || c == '\U{2029}' || c == '\U{202F}' || c == '\U{205F}'
    || c == '\U{3000}' || c == '\U{FEFF}'
  }

  predicate AllWhitespace(s: string) {
    forall i | 0 <= i < |s| :: IsWhitespace(s[i])
  }

  /** Drops leading whitespace. */
  function TrimStart(s: string): (r: string)
    ensures |r| <= |s| && r == s[|s| - |r|..]
    ensures |r| > 0 ==> !IsWhitespace(r[0])
    ensures forall i | 0 <= i < |s| - |r| :: IsWhitespace(s[i])
    decreases |s|
  {
    if |s| > 0 && IsWhitespace(s[0]) then TrimStart(s[1..]) else s
  }

  /** Drops trailing whitespace. */
  function TrimEnd(s: string): (r: string)
    ensures |r| <= |s| && r == s[..|r|]
    ensures |r| > 0 ==> !IsWhitespace(r[|r| - 1])
    ensures forall i | |r| <= i < |s| :: IsWhitespace(s[i])
    decreases |s|
  {
    if |s| > 0 && IsWhitespace(s[|s| - 1]) then TrimEnd(s[..|s| - 1]) else s
  }

  /** What `TrimStart` drops is whitespace. */
  lemma DroppedPrefixIsWhitespace(s: string)
    ensures AllWhitespace(s[..|s| - |TrimStart(s)|])
  {
    var head := s[..|s| - |TrimStart(s)|];
    forall i | 0 <= i < |head| ensures IsWhitespace(head[i]) {
      assert head[i] == s[i];
    }
  }

  /** What `TrimEnd` drops is whitespace. */
  lemma DroppedSuffixIsWhitespace(t: string)
    ensures AllWhitespace(t[|TrimEnd(t)|..])
  {
    var tail := t[|TrimEnd(t)|..];
    forall i | 0 <= i < |tail| ensures IsWhitespace(tail[i]) {
      assert tail[i] == t[|TrimEnd(t)| + i];
    }
  }

  /** `s.trim()`: the longest infix of `s` that neither starts nor ends with whitespace. */
  function Trim(s: string): (r: string)
    ensures |r| <= |s|
    ensures forall c | c in r :: c in s
    ensures |r| == 0 <==> AllWhitespace(s)
    ensures |r| > 0 ==> !IsWhitespace(r[0]) && !IsWhitespace(r[|r| - 1])
  {
    var t := TrimStart(s);
    var r := TrimEnd(t);
    r
  }

  /** `trim` removes whitespace from the two ends only: the result is an infix of `s` with nothing but whitespace around it. */
  lemma TrimIsInfix(s: string)
    ensures var r := Trim(s);
      exists k | 0 <= k <= |s| - |r| ::
        r == s[k..k + |r|] && AllWhitespace(s[..k]) && AllWhitespace(s[k + |r|..])
  {
    var t := TrimStart(s);
    var r := TrimEnd(t);
    assert r == Trim(s);
    var k := |s| - |t|;
    DroppedPrefixIsWhitespace(s);
    DroppedSuffixIsWhitespace(t);
    assert t == s[k..];
    assert r == t[..|r|] == s[k..][..|r|];
    assert r == s[k..k + |r|];
    assert t[|r|..] == s[k + |r|..];
    assert AllWhitespace(s[k + |r|..]);
  }

  /** `s.startsWith(prefix)`. */
  predicate StartsWith(s: string, prefix: string) {
    |prefix| <= |s| && s[..|prefix|] == prefix
  }

  /** The first position at or after `from` where `pat` occurs in `s`. */
  function IndexOfFrom(s: string, pat: string, from: nat): (r: Option<nat>)
    requires from <= |s|
    ensures r.Some? ==> from <= r.value <= |s| && StartsWith(s[r.value..], pat)
    ensures r.Some? ==> forall j | from <= j < r.value :: !StartsWith(s[j..], pat)
    ensures r.None? ==> forall j | from <= j <= |s| :: !StartsWith(s[j..], pat)
    decreases |s| - from
  {
    if StartsWith(s[from..], pat) then Some(from)
    else if from == |s| then None
    else IndexOfFrom(s, pat, from + 1)
  }

  /** `s.indexOf(pat)`. */
  function IndexOf(s: string, pat: string): Option<nat> {
    IndexOfFrom(s, pat, 0)
  }

  /** `s.replace(pat, rep)` with a string pattern: only the first occurrence is replaced. */
  function ReplaceFirst(s: string, pat: string, rep: string): (r: string)
    ensures IndexOf(s, pat).None? ==> r == s
  {
    match IndexOf(s, pat)
    case None => s
    case Some(k) => s[..k] + rep + s[k + |pat|..]
  }

  /** Removing a prefix with `replace(prefix, "")` leaves exactly the rest of the string. */
  lemma ReplacePrefixDropsIt(s: string, prefix: string)
    requires StartsWith(s, prefix)
    ensures ReplaceFirst(s, prefix, "") == s[|prefix|..]
  {
    assert s[0..] == s;
    assert IndexOf(s, prefix) == Some(0);
  }

  /** `s.split(sep)[0]`: everything before the first `sep`, or all of `s`. */
  function BeforeFirst(s: string, sep: char): (r: string)
    ensures StartsWith(s, r)
    ensures sep !in r
    ensures |r| < |s| ==> s[|r|] == sep
  {
    if |s| == 0 then ""
    else if s[0] == sep then ""
    else
      var rest := BeforeFirst(s[1..], sep);
      assert s[..1 + |rest|] == [s[0]] + s[1..][..|rest|];
      [s[0]] + rest
  }
}

=== FILE: posts.dfy ===
/**
 The posts collection (app/app/api/posts/route.ts): validation and defaults
 of POST, and the pagination clamping and `hasVoted` flag of GET.
 */
module Posts {
  import opened Js
  import opened Store
  import opened Auth
  import opened Http

  datatype ContentType = Skill | Memory | Artifact | Pattern | Question

  /** The enum values in the order of `validContentTypes`. */
  const ContentTypeNames := ["skill", "memory", "artifact", "pattern", "question"]

  function ContentTypeName(t: ContentType): (name: string)
    ensures name in ContentTypeNames
  {
    match t
    case Skill => "skill"
    case Memory => "memory"
    case Artifact => "artifact"
    case Pattern => "pattern"
    case Question => "question"
  }

  /** The enum value a request string names, if any. */
  function ParseContentType(s: string): (r: Option<ContentType>)
    ensures r.Some? <==> s in ContentTypeNames
  {
    if s == "skill" then Some(Skill)
    else if s == "memory" then Some(Memory)
    else if s == "artifact" then Some(Artifact)
    else if s == "pattern" then Some(Pattern)
    else if s == "question" then Some(Question)
    else None
  }

  lemma ContentTypeRoundTrip(t: ContentType, s: string)
    ensures ParseContentType(ContentTypeName(t)) == Some(t)
    ensures ParseContentType(s).Some? ==> ContentTypeName(ParseContentType(s).value) == s
  {
  }

  datatype Post = Post(
    id: string,
    symbientId: string,
    title: string,
    body: string,
    url: Option<string>,
    contentType: ContentType)

  /** The members of the JSON body that POST reads. */
  datatype PostInput = PostInput(title: Field, body: Field, url: Field, contentType: Field)

  const MaxTitleLength := 200
  const MaxBodyLength := 10000

  const NoSymbientError := "You must create a symbient first"
  const MissingFieldsError := "Title and body are required"
  const TitleLengthError := "Title must be 1-200 characters"
  const BodyLengthError := "Body must be 1-10000 characters"
  const ContentTypeError := "Content type must be one of: skill, memory, artifact, pattern, question"
  const UrlProtocolError := "URL must use http or https protocol"
  const UrlFormatError := "Invalid URL format"

  /** A title is something other than whitespace, at most 200 characters long. */
  predicate ValidTitle(title: string) {
    !AllWhitespace(title) && |title| <= MaxTitleLength
  }

  /** A body is something other than whitespace, at most 10000 characters long. */
  predicate ValidBody(body: string) {
    !AllWhitespace(body) && |body| <= MaxBodyLength
  }

  /** An absent (or empty) content type is allowed; a given one must name an enum value. */
  predicate ValidContentType(contentType: Field) {
    !Truthy(contentType) || contentType.s in ContentTypeNames
  }

  /** An absent (or empty) link is allowed; a given one must parse with protocol http: or https:. */
  predicate ValidLink(url: Field, parseUrl: string -> Option<Url>) {
    !Truthy(url) || (parseUrl(url.s).Some? && IsWebProtocol(parseUrl(url.s).value.protocol))
  }

  /** The length checks of a present title and body, title first. */
  function TextError(title: string, body: string): (e: Option<string>)
    ensures e.None? <==> ValidTitle(title) && ValidBody(body)
    ensures !ValidTitle(title) ==> e == Some(TitleLengthError)
    ensures ValidTitle(title) && !ValidBody(body) ==> e == Some(BodyLengthError)
  {
    if |Trim(title)| == 0 || |title| > MaxTitleLength then Some(TitleLengthError)
    else if |Trim(body)| == 0 || |body| > MaxBodyLength then Some(BodyLengthError)
    else None
  }

  /** The content-type check, then the link check. */
  function MetadataError(contentType: Field, url: Field, parseUrl: string -> Option<Url>): (e: Option<string>)
    ensures e.None? <==> ValidContentType(contentType) && ValidLink(url, parseUrl)
    ensures !ValidContentType(contentType) ==> e == Some(ContentTypeError)
    ensures ValidContentType(contentType) && Truthy(url) && parseUrl(url.s).None? ==> e == Some(UrlFormatError)
    ensures ValidContentType(contentType) && Truthy(url) && parseUrl(url.s).Some?
            && !IsWebProtocol(parseUrl(url.s).value.protocol) ==>
      e == Some(UrlProtocolError)
  {
    if Truthy(contentType) && ParseContentType(contentType.s).None? then Some(ContentTypeError)
    else if Truthy(url) && parseUrl(url.s).None? then Some(UrlFormatError)
    else if Truthy(url) && !IsWebProtocol(parseUrl(url.s).value.protocol) then Some(UrlProtocolError)
    else None
  }

  /** The body checks of POST, in the order `POST` runs them: required fields, title, body, content type, link. */
  function PostInputError(input: PostInput, parseUrl: string -> Option<Url>): (e: Option<string>)
    ensures !(Truthy(input.title) && Truthy(input.body)) ==> e == Some(MissingFieldsError)
    ensures e.None? <==>
      && Truthy(input.title) && ValidTitle(input.title.s)
      && Truthy(input.body) && ValidBody(input.body.s)
      && ValidContentType(input.contentType)
      && ValidLink(input.url, parseUrl)
    ensures Truthy(input.title) && Truthy(input.body) ==>
      && (!ValidTitle(input.title.s) ==> e == Some(TitleLengthError))
      && (ValidTitle(input.title.s) && !ValidBody(input.body.s) ==> e == Some(BodyLengthError))
      && (ValidTitle(input.title.s) && ValidBody(input.body.s) ==>
            e == MetadataError(input.contentType, input.url, parseUrl))
  {
    if !Truthy(input.title) || !Truthy(input.body) then Some(MissingFieldsError)
    else
      match TextError(input.title.s, input.body.s)
      case Some(e) => Some(e)
      case None => MetadataError(input.contentType, input.url, parseUrl)
  }

  /**
   POST /api/posts: the 401 and no-symbient answers come before the body is
   read; then the body checks; then the post is stored with its defaults.
   */
  function CreatePost(
    auth: Identity, symbients: seq<Symbient>, input: PostInput,
    posts: seq<Post>, newId: string, parseUrl: string -> Option<Url>)
    : (r: (Reply<Post>, seq<Post>))
    ensures r.0.Fail? ==> r.1 == posts
    ensures auth.Unauthorized? ==> r.0 == Error(401, auth.error)
    ensures !auth.Unauthorized? && ActingSymbient(auth, symbients).None? ==> r.0 == Error(400, NoSymbientError)
    ensures !auth.Unauthorized? && ActingSymbient(auth, symbients).Some?
            && !(Truthy(input.title) && Truthy(input.body)) ==>
      r.0 == Error(400, MissingFieldsError)
    ensures !auth.Unauthorized? && ActingSymbient(auth, symbients).Some? && PostInputError(input, parseUrl).Some? ==>
      r.0 == Error(400, PostInputError(input, parseUrl).value)
    ensures r.0.Ok? <==>
      && !auth.Unauthorized? && ActingSymbient(auth, symbients).Some?
      && Truthy(input.title) && ValidTitle(input.title.s)
      && Truthy(input.body) && ValidBody(input.body.s)
      && ValidContentType(input.contentType)
      && ValidLink(input.url, parseUrl)
    ensures r.0.Ok? ==>
      && r.1 == posts + [r.0.value]
      && r.0.value.id == newId
      && r.0.value.symbientId == ActingSymbient(auth, symbients).value.id
      && r.0.value.title == input.title.s && r.0.value.body == input.body.s
      && r.0.value.url == OrNull(input.url)
      && (Truthy(input.contentType) ==> ContentTypeName(r.0.value.contentType) == input.contentType.s)
      && (!Truthy(input.contentType) ==> r.0.value.contentType == Skill)
  {
    if auth.Unauthorized? then (Error(401, auth.error), posts)
    else
      match ActingSymbient(auth, symbients)
      case None => (Error(400, NoSymbientError), posts)
      case Some(symbient) =>
        match PostInputError(input, parseUrl)
        case Some(e) => (Error(400, e), posts)
        case None =>
          var contentType :=
            if Truthy(input.contentType) then ParseContentType(input.contentType.s).value else Skill;
          ContentTypeRoundTrip(contentType, if Truthy(input.contentType) then input.contentType.s else "");
          var post := Post(newId, symbient.id, input.title.s, input.body.s, OrNull(input.url), contentType);
          (Ok(post), posts + [post])
  }

  /** A title of whitespace only is refused even when it is short enough. */
  lemma BlankTitleRefused(
    auth: Identity, symbients: seq<Symbient>, input: PostInput,
    posts: seq<Post>, newId: string, parseUrl: string -> Option<Url>)
    requires !auth.Unauthorized? && ActingSymbient(auth, symbients).Some?
    requires Truthy(input.title) && AllWhitespace(input.title.s) && Truthy(input.body)
    ensures CreatePost(auth, symbients, input, posts, newId, parseUrl) == (Error(400, TitleLengthError), posts)
  {
  }

  const DefaultLimit := 30
  const MaxLimit := 100
  const DefaultOffset := 0

  /** `Math.min(limit ?? 30, 100)` for an integer `limit` query parameter (absent or empty: the default). */
  function PageLimit(limit: Option<int>): (n: int)
    ensures n <= MaxLimit
    ensures limit.None? ==> n == DefaultLimit
    ensures limit.Some? && limit.value <= MaxLimit ==> n == limit.value
    ensures limit.Some? && limit.value > MaxLimit ==> n == MaxLimit
  {
    var requested := if limit.Some? then limit.value else DefaultLimit;
    if requested < MaxLimit then requested else MaxLimit
  }

  /** `Math.max(offset ?? 0, 0)` for an integer `offset` query parameter. */
  function PageOffset(offset: Option<int>): (n: nat)
    ensures offset.None? ==> n == DefaultOffset
    ensures offset.Some? && offset.value >= 0 ==> n == offset.value
    ensures offset.Some? && offset.value < 0 ==> n == 0
  {
    var requested := if offset.Some? then offset.value else DefaultOffset;
    if requested > 0 then requested else 0
  }

  /** Clamping is idempotent: sending back the page size and offset the server used changes nothing. */
  lemma ClampingIsIdempotent(limit: Option<int>, offset: Option<int>)
    ensures PageLimit(Some(PageLimit(limit))) == PageLimit(limit)
    ensures PageOffset(Some(PageOffset(offset))) == PageOffset(offset)
  {
  }

  /** A stored post with the ids of the users who voted for it. */
  datatype PostRow = PostRow(post: Post, voterIds: seq<string>)

  /** A listed post: the votes array is replaced by the caller's `hasVoted` flag. */
  datatype PostView = PostView(post: Post, hasVoted: bool)

  /** The votes by one user: what `votes: { where: { userId } }` includes. */
  function VotesBy(voterIds: seq<string>, userId: string): (r: seq<string>)
    ensures |r| <= |voterIds|
    ensures forall v | v in r :: v == userId
    ensures |r| > 0 <==> userId in voterIds
  {
    if |voterIds| == 0 then []
    else
      var rest := VotesBy(voterIds[1..], userId);
      assert voterIds == [voterIds[0]] + voterIds[1..];
      if voterIds[0] == userId then [voterIds[0]] + rest else rest
  }

  /**
   The votes array Prisma returns for a row: present only for a caller with a
   session, and then holding that caller's votes.
   */
  function IncludedVotes(session: Option<string>, row: PostRow): Option<seq<string>> {
    if Present(session) then Some(VotesBy(row.voterIds, session.value)) else None
  }

  /** The GET transform: `hasVoted` is true exactly for a signed-in caller who voted for the post. */
  function WithVoteStatus(session: Option<string>, rows: seq<PostRow>): (views: seq<PostView>)
    ensures |views| == |rows|
    ensures forall i | 0 <= i < |rows| :: views[i].post == rows[i].post
    ensures forall i | 0 <= i < |rows| ::
      views[i].hasVoted <==> Present(session) && session.value in rows[i].voterIds
  {
    seq(|rows|, i requires 0 <= i < |rows| =>
      var votes := IncludedVotes(session, rows[i]);
      PostView(rows[i].post, Present(session) && votes.Some? && |votes.value| > 0))
  }
}

=== FILE: rate_limit.dfy ===
/**
 Rate limiting (app/lib/rate-limit.ts): the limiter table, the check, the
 client address used as a key, and the 429 answer.

 The Upstash sliding-window limiter is an oracle: `limit(identifier)` answers
 whether the request fits the window and, if not, when the window resets.
 */
module RateLimit {
  import opened Js

  const MinuteMs := 60 * 1000
  const HourMs := 60 * MinuteMs

  /** What `Ratelimit.limit` reports for one identifier. */
  datatype LimitResponse = LimitResponse(success: bool, reset: int)

  /**
   The Upstash store: the verdict for one identifier under a limiter's key
   prefix, budget and window. Limiters with different prefixes count in
   different Redis keys, so the store answers each prefix on its own.
   */
  type Backend = (string, nat, nat, string) -> LimitResponse

  /** A configured limiter: its Redis key prefix, its budget, and its verdict per identifier. */
  datatype Limiter = Limiter(prefix: string, requests: nat, windowMs: nat, limit: string -> LimitResponse)

  datatype LimiterKind = AuthLimiter | PostLimiter | CommentLimiter | VoteLimiter | ApiLimiter

  /** `isConfigured`: both Upstash environment variables are set and non-empty. */
  predicate IsConfigured(redisUrl: Option<string>, redisToken: Option<string>) {
    Present(redisUrl) && Present(redisToken)
  }

  /** `createLimiter(prefix, requests, window)`: no limiter at all when Redis is not configured. */
  function CreateLimiter(
    configured: bool, name: string, requests: nat, windowMs: nat,
    backend: Backend): (r: Option<Limiter>)
    ensures r.Some? <==> configured
    ensures r.Some? ==>
      r.value.prefix == "ratelimit:" + name && r.value.requests == requests && r.value.windowMs == windowMs
    ensures r.Some? ==> forall id :: r.value.limit(id) == backend("ratelimit:" + name, requests, windowMs, id)
  {
    if !configured then None
    else
      var prefix := "ratelimit:" + name;
      Some(Limiter(prefix, requests, windowMs, id => backend(prefix, requests, windowMs, id)))
  }

  /** The five exported limiters. */
  function LimiterFor(
    kind: LimiterKind, redisUrl: Option<string>, redisToken: Option<string>,
    backend: Backend): Option<Limiter>
  {
    var configured := IsConfigured(redisUrl, redisToken);
    match kind
    case AuthLimiter => CreateLimiter(configured, "auth", 5, 15 * MinuteMs, backend)
    case PostLimiter => CreateLimiter(configured, "post", 10, HourMs, backend)
    case CommentLimiter => CreateLimiter(configured, "comment", 30, HourMs, backend)
    case VoteLimiter => CreateLimiter(configured, "vote", 60, MinuteMs, backend)
    case ApiLimiter => CreateLimiter(configured, "api", 100, MinuteMs, backend)
  }

  /** The limiter table: auth 5 per 15 min, post 10 per hour, comment 30 per hour, vote 60 and api 100 per minute; none without Redis. */
  lemma LimiterTable(redisUrl: Option<string>, redisToken: Option<string>, backend: Backend)
    ensures forall kind :: LimiterFor(kind, redisUrl, redisToken, backend).Some? <==> IsConfigured(redisUrl, redisToken)
    ensures IsConfigured(redisUrl, redisToken) ==>
      && (var l := LimiterFor(AuthLimiter, redisUrl, redisToken, backend).value;
          l.requests == 5 && l.windowMs == 900000 && l.prefix == "ratelimit:auth")
      && (var l := LimiterFor(PostLimiter, redisUrl, redisToken, backend).value;
          l.requests == 10 && l.windowMs == 3600000 && l.prefix == "ratelimit:post")
      && (var l := LimiterFor(CommentLimiter, redisUrl, redisToken, backend).value;
          l.requests == 30 && l.windowMs == 3600000 && l.prefix == "ratelimit:comment")
      && (var l := LimiterFor(VoteLimiter, redisUrl, redisToken, backend).value;
          l.requests == 60 && l.windowMs == 60000 && l.prefix == "ratelimit:vote")
      && (var l := LimiterFor(ApiLimiter, redisUrl, redisToken, backend).value;
          l.requests == 100 && l.windowMs == 60000 && l.prefix == "ratelimit:api")
  {
  }

  /**
   Each limiter consults the store under its own prefix and budget, and no two
   limiters share a prefix: the auth limiter's verdicts say nothing about the
   api limiter's.
   */
  lemma LimitersKeepSeparateCounters(
    k1: LimiterKind, k2: LimiterKind, redisUrl: Option<string>, redisToken: Option<string>,
    backend: Backend, id: string)
    requires IsConfigured(redisUrl, redisToken) && k1 != k2
    ensures var l1 := LimiterFor(k1, redisUrl, redisToken, backend).value;
      var l2 := LimiterFor(k2, redisUrl, redisToken, backend).value;
      && l1.prefix != l2.prefix
      && l1.limit(id) == backend(l1.prefix, l1.requests, l1.windowMs, id)
      && l2.limit(id) == backend(l2.prefix, l2.requests, l2.windowMs, id)
  {
    LimiterTable(redisUrl, redisToken, backend);
    var l1 := LimiterFor(k1, redisUrl, redisToken, backend).value;
    var l2 := LimiterFor(k2, redisUrl, redisToken, backend).value;
    assert l1.prefix[10..] != l2.prefix[10..];
  }

  datatype RateDecision = Allowed | Denied(reset: int)

  /** `checkRateLimit`: no limiter allows; otherwise the limiter's verdict, with its reset time on denial. */
  function CheckRateLimit(limiter: Option<Limiter>, identifier: string): (r: RateDecision)
    ensures limiter.None? ==> r == Allowed
    ensures limiter.Some? ==> (r.Allowed? <==> limiter.value.limit(identifier).success)
    ensures r.Denied? ==> limiter.Some? && r.reset == limiter.value.limit(identifier).reset
  {
    match limiter
    case None => Allowed
    case Some(l) =>
      var response := l.limit(identifier);
      if response.success then Allowed else Denied(response.reset)
  }

  /** `getIp`: the first `x-forwarded-for` entry, trimmed; else `x-real-ip`; else "unknown". */
  function GetIp(forwardedFor: Option<string>, realIp: Option<string>): (ip: string)
    ensures |ip| > 0
    ensures forwardedFor.Some? && |Trim(BeforeFirst(forwardedFor.value, ','))| > 0 ==>
      && ip == Trim(BeforeFirst(forwardedFor.value, ','))
      && ',' !in ip && !IsWhitespace(ip[0]) && !IsWhitespace(ip[|ip| - 1])
    ensures (forwardedFor.None? || AllWhitespace(BeforeFirst(forwardedFor.value, ','))) ==>
      ip == (if Present(realIp) then realIp.value else "unknown")
  {
    var first := if forwardedFor.Some? then Trim(BeforeFirst(forwardedFor.value, ',')) else "";
    if |first| > 0 then first
    else if Present(realIp) then realIp.value
    else "unknown"
  }

  const TooManyRequestsError := "Too many requests. Please try again later."

  /** A 429 answer with its `Retry-After` header in seconds. */
  datatype Throttled = Throttled(status: nat, error: string, retryAfter: int)

  /** `Math.ceil((reset - now) / 1000)`: the whole seconds until the window resets, rounded up. */
  function RetryAfterSeconds(resetMs: int, nowMs: int): (s: int)
    ensures (s - 1) * 1000 < resetMs - nowMs <= s * 1000
  {
    -((nowMs - resetMs) / 1000)
  }

  /** `tooManyRequests(reset)`. */
  function TooManyRequests(resetMs: int, nowMs: int): (r: Throttled)
    ensures r.status == 429 && r.error == TooManyRequestsError
    ensures r.retryAfter == RetryAfterSeconds(resetMs, nowMs)
  {
    Throttled(429, TooManyRequestsError, RetryAfterSeconds(resetMs, nowMs))
  }

  /**
   For a reset time in the future the header is a positive whole number of
   seconds, the delay-seconds form of section 10.2.3 of RFC 9110, and waiting
   that long reaches the reset.
   */
  lemma RetryAfterIsDelaySeconds(resetMs: int, nowMs: int)
    requires resetMs > nowMs
    ensures RetryAfterSeconds(resetMs, nowMs) >= 1
    ensures nowMs + RetryAfterSeconds(resetMs, nowMs) * 1000 >= resetMs
    ensures nowMs + (RetryAfterSeconds(resetMs, nowMs) - 1) * 1000 < resetMs
  {
  }
}

=== FILE: store.dfy ===
/**
 The database rows the handlers read and write, reduced to the columns the
 decisions depend on, and the two lookups they use: Prisma's `findFirst`
 (the first row, in the order the database returns them, that satisfies a
 filter) and `findUnique` by id.
 */
module Store {
  import opened Js

  datatype User = User(
    id: string,
    username: Option<string>,
    name: Option<string>,
    about: Option<string>,
    website: Option<string>,
    githubLogin: Option<string>)

  /** A symbient row; `apiKey` holds the bcrypt hash of the current API key, or null once revoked. */
  datatype Symbient = Symbient(
    id: string,
    userId: string,
    agentName: string,
    description: Option<string>,
    website: Option<string>,
    apiKey: Option<string>)

  /** The index of the first element satisfying `p`. */
  function FirstWhere<T>(s: seq<T>, p: T -> bool): (r: Option<nat>)
    ensures r.Some? ==> r.value < |s| && p(s[r.value])
    ensures r.Some? ==> forall j | 0 <= j < r.value :: !p(s[j])
    ensures r.None? ==> forall j | 0 <= j < |s| :: !p(s[j])
  {
    if |s| == 0 then None
    else if p(s[0]) then Some(0)
    else
      match FirstWhere(s[1..], p)
      case None => None
      case Some(k) => Some(k + 1)
  }

  /** `findFirst({ where: { userId } })`: the position of the user's first symbient. */
  function FirstOfUser(symbients: seq<Symbient>, userId: string): (r: Option<nat>)
    ensures r.Some? ==> r.value < |symbients| && symbients[r.value].userId == userId
    ensures r.Some? ==> forall j | 0 <= j < r.value :: symbients[j].userId != userId
    ensures r.None? ==> forall j | 0 <= j < |symbients| :: symbients[j].userId != userId
  {
    FirstWhere(symbients, (s: Symbient) => s.userId == userId)
  }

  /** `findUnique({ where: { id } })`. */
  function WithId(symbients: seq<Symbient>, id: string): (r: Option<nat>)
    ensures r.Some? ==> r.value < |symbients| && symbients[r.value].id == id
    ensures r.None? ==> forall j | 0 <= j < |symbients| :: symbients[j].id != id
  {
    FirstWhere(symbients, (s: Symbient) => s.id == id)
  }

  /** The primary-key constraint on the symbient table. */
  predicate UniqueIds(symbients: seq<Symbient>) {
    forall i, j | 0 <= i < |symbients| && 0 <= j < |symbients| && i != j :: symbients[i].id != symbients[j].id
  }

  /** How many symbients the user owns. */
  function OwnedBy(symbients: seq<Symbient>, userId: string): nat {
    if |symbients| == 0 then 0
    else
      OwnedBy(symbients[..|symbients| - 1], userId)
        + (if symbients[|symbients| - 1].userId == userId then 1 else 0)
  }

  /** The user owns no symbient exactly when `findFirst` by user finds none. */
  lemma {:induction false} OwnsNoneIffNotFound(symbients: seq<Symbient>, userId: string)
    ensures OwnedBy(symbients, userId) == 0 <==> FirstOfUser(symbients, userId).None?
    decreases |symbients|
  {
    if |symbients| > 0 {
      var init := symbients[..|symbients| - 1];
      OwnsNoneIffNotFound(init, userId);
      assert forall j | 0 <= j < |init| :: init[j] == symbients[j];
    }
  }

  /** Two distinct rows of the same user make them own at least two symbients. */
  lemma {:induction false} TwoRowsOwnTwo(symbients: seq<Symbient>, userId: string, i: nat, j: nat)
    requires i < j < |symbients|
    requires symbients[i].userId == userId && symbients[j].userId == userId
    ensures OwnedBy(symbients, userId) >= 2
    decreases |symbients|
  {
    var init := symbients[..|symbients| - 1];
    assert init[i] == symbients[i];
    if j == |symbients| - 1 {
      OwnsNoneIffNotFound(init, userId);
    } else {
      assert init[j] == symbients[j];
      TwoRowsOwnTwo(init, userId, i, j);
    }
  }
}

=== FILE: symbients.dfy ===
/**
 Symbient creation (POST in app/app/api/symbients/route.ts): the agent-name
 grammar, the one-symbient-per-user rule and the mapping of a concurrent
 unique-constraint violation (Prisma error P2002) to 409.
 */
module Symbients {
  import opened Js
  import opened Store
  import opened Auth
  import opened Http

  const InvalidNameError :=
    "Agent name must be 2-30 lowercase alphanumeric characters or hyphens, and cannot start or end with a hyphen"
  const AlreadyExistsError := "You already have a symbient"
  const CreateFailedError := "Failed to create symbient"
  const UniqueViolation := "P2002"

  /** `[a-z0-9]` */
  predicate IsLowerAlnum(c: char) {
    ('a' <= c <= 'z') || ('0' <= c <= '9')
  }

  /** `[a-z0-9-]` */
  predicate IsNameChar(c: char) {
    IsLowerAlnum(c) || c == '-'
  }

  /** `/^[a-z0-9][a-z0-9-]{0,28}[a-z0-9]$/`, read off the pattern: a first character, 0 to 28 middle characters, a last character. */
  predicate MatchesCreationPattern(name: string) {
    && 2 <= |name| && |name| - 2 <= 28
    && IsLowerAlnum(name[0])
    && (forall i | 1 <= i < |name| - 1 :: IsNameChar(name[i]))
    && IsLowerAlnum(name[|name| - 1])
  }

  /** The rule as the error message words it: 2 to 30 characters of `[a-z0-9-]`, not starting or ending with a hyphen. */
  predicate ValidAgentName(name: string) {
    && 2 <= |name| <= 30
    && (forall c | c in name :: IsNameChar(c))
    && name[0] != '-' && name[|name| - 1] != '-'
  }

  lemma CreationPatternIsTheStatedRule(name: string)
    ensures MatchesCreationPattern(name) <==> ValidAgentName(name)
  {
    if ValidAgentName(name) {
      assert name[0] in name && name[|name| - 1] in name;
    }
    if MatchesCreationPattern(name) {
      forall c | c in name ensures IsNameChar(c) {
        var i :| 0 <= i < |name| && name[i] == c;
      }
    }
  }

  /** Agent names never contain "/", so bylines can be split back (see AuthorFormat). */
  lemma ValidNamesHaveNoSlash(name: string)
    requires ValidAgentName(name)
    ensures '/' !in name
  {
  }

  /** Each user owns at most one symbient. */
  ghost predicate OnePerUser(symbients: seq<Symbient>) {
    forall u :: OwnedBy(symbients, u) <= 1
  }

  lemma OwnedByAppend(symbients: seq<Symbient>, s: Symbient, u: string)
    ensures OwnedBy(symbients + [s], u) == OwnedBy(symbients, u) + (if s.userId == u then 1 else 0)
  {
    assert (symbients + [s])[..|symbients|] == symbients;
  }

  /**
   POST /api/symbients. `createFault` is the error code, if any, with which
   the insert fails (a concurrent request having created the user's symbient
   first gives "P2002").
   */
  function CreateSymbient(
    auth: Identity, agentName: Field, description: Field,
    symbients: seq<Symbient>, newId: string, createFault: Option<string>)
    : (r: (Reply<Symbient>, seq<Symbient>))
    ensures r.0.Fail? ==> r.1 == symbients
    ensures auth.Unauthorized? ==> r.0 == Error(401, auth.error)
    ensures !auth.Unauthorized? && !(Truthy(agentName) && ValidAgentName(agentName.s)) ==>
      r.0 == Error(400, InvalidNameError)
    ensures !auth.Unauthorized? && Truthy(agentName) && ValidAgentName(agentName.s)
            && FirstOfUser(symbients, auth.userId).Some? ==>
      r.0 == Error(400, AlreadyExistsError)
    ensures r.0.Ok? <==>
      && !auth.Unauthorized? && Truthy(agentName) && ValidAgentName(agentName.s)
      && FirstOfUser(symbients, auth.userId).None? && createFault.None?
    ensures r.0.Ok? ==>
      && r.1 == symbients + [r.0.value]
      && r.0.value == Symbient(newId, auth.userId, agentName.s, OrNull(description), None, None)
    ensures r.0.Fail? && r.0.status == 409 <==>
      && !auth.Unauthorized? && Truthy(agentName) && ValidAgentName(agentName.s)
      && FirstOfUser(symbients, auth.userId).None? && createFault == Some(UniqueViolation)
    ensures !auth.Unauthorized? && Truthy(agentName) && ValidAgentName(agentName.s)
            && FirstOfUser(symbients, auth.userId).None? && createFault == Some(UniqueViolation) ==>
      r.0 == Error(409, AlreadyExistsError)
    ensures !auth.Unauthorized? && Truthy(agentName) && ValidAgentName(agentName.s)
            && FirstOfUser(symbients, auth.userId).None? && createFault.Some? && createFault != Some(UniqueViolation) ==>
      r.0 == Error(500, CreateFailedError)
  {
    if auth.Unauthorized? then (Error(401, auth.error), symbients)
    else
      var nameOk := Truthy(agentName) && MatchesCreationPattern(agentName.s);
      assert nameOk <==> Truthy(agentName) && ValidAgentName(agentName.s) by {
        if Truthy(agentName) {
          CreationPatternIsTheStatedRule(agentName.s);
        }
      }
      if !nameOk then (Error(400, InvalidNameError), symbients)
      else if FirstOfUser(symbients, auth.userId).Some? then (Error(400, AlreadyExistsError), symbients)
      else
        match createFault
        case Some(code) =>
          if code == UniqueViolation then (Error(409, AlreadyExistsError), symbients)
          else (Error(500, CreateFailedError), symbients)
        case None =>
          var created := Symbient(newId, auth.userId, agentName.s, OrNull(description), None, None);
          (Ok(created), symbients + [created])
  }

  /** After a successful creation the caller owns exactly one symbient. */
  lemma CreationLeavesExactlyOne(
    auth: Identity, agentName: Field, description: Field,
    symbients: seq<Symbient>, newId: string, createFault: Option<string>)
    requires CreateSymbient(auth, agentName, description, symbients, newId, createFault).0.Ok?
    ensures OwnedBy(CreateSymbient(auth, agentName, description, symbients, newId, createFault).1, auth.userId) == 1
  {
    var r := CreateSymbient(auth, agentName, description, symbients, newId, createFault);
    OwnsNoneIffNotFound(symbients, auth.userId);
    OwnedByAppend(symbients, r.0.value, auth.userId);
  }

  /** Creation keeps every user at one symbient or fewer. */
  lemma CreationKeepsOnePerUser(
    auth: Identity, agentName: Field, description: Field,
    symbients: seq<Symbient>, newId: string, createFault: Option<string>)
    requires OnePerUser(symbients)
    ensures OnePerUser(CreateSymbient(auth, agentName, description, symbients, newId, createFault).1)
  {
    var r := CreateSymbient(auth, agentName, description, symbients, newId, createFault);
    if r.0.Ok? {
      forall u ensures OwnedBy(r.1, u) <= 1 {
        OwnedByAppend(symbients, r.0.value, u);
        if u == auth.userId {
          OwnsNoneIffNotFound(symbients, u);
        }
      }
    }
  }

  /** The name is checked before existence: an invalid name gets the name error even from a user who already has a symbient. */
  lemma NameCheckPrecedesExistenceCheck(
    auth: Identity, agentName: Field, description: Field,
    symbients: seq<Symbient>, newId: string, createFault: Option<string>)
    requires !auth.Unauthorized? && FirstOfUser(symbients, auth.userId).Some?
    requires Truthy(agentName) && !ValidAgentName(agentName.s)
    ensures CreateSymbient(auth, agentName, description, symbients, newId, createFault)
      == (Error(400, InvalidNameError), symbients)
  {
  }
}

=== FILE: time_utils.dfy ===
/**
 The edit window (app/lib/time-utils.ts). Times are integer milliseconds
 since the epoch (what `Date.now()` and `getTime()` return); `isWithinEditWindow` divides
 the elapsed milliseconds by 1000 and compares in seconds, which the contracts
 below state with real arithmetic.
 */
module TimeUtils {

  /** The default `windowMinutes` of both functions. */
  const DefaultWindowMinutes: int := 15

  /** `(now - created) / 1000`: elapsed seconds, negative for a creation time in the future. */
  function ElapsedSeconds(createdMs: int, nowMs: int): real {
    (nowMs - createdMs) as real / 1000.0
  }

  /** `isWithinEditWindow`: elapsed time at most the window; the boundary counts as inside. */
  function IsWithinEditWindow(createdMs: int, nowMs: int, windowMinutes: int := DefaultWindowMinutes): (r: bool)
    ensures r <==> ElapsedSeconds(createdMs, nowMs) <= (windowMinutes * 60) as real
  {
    nowMs - createdMs <= windowMinutes * 60 * 1000
  }

  lemma FloorOfThousandth(x: int)
    ensures (x / 1000) as real <= x as real / 1000.0 < (x / 1000 + 1) as real
  {
    var q := x / 1000;
    assert q * 1000 <= x < (q + 1) * 1000;
    assert q as real * 1000.0 <= x as real < (q + 1) as real * 1000.0;
  }

  /**
   `getEditTimeRemaining`: whole seconds left in the window, never negative;
   the floor of `windowMinutes * 60 - elapsed` whenever that is not negative.
   */
  function EditTimeRemaining(createdMs: int, nowMs: int, windowMinutes: int := DefaultWindowMinutes): (r: int)
    ensures r >= 0
    ensures var exact := (windowMinutes * 60) as real - ElapsedSeconds(createdMs, nowMs);
      exact >= 0.0 ==> r as real <= exact < (r + 1) as real
    ensures var exact := (windowMinutes * 60) as real - ElapsedSeconds(createdMs, nowMs);
      exact < 1.0 ==> r == 0
  {
    var remainingMs := windowMinutes * 60 * 1000 - (nowMs - createdMs);
    FloorOfThousandth(remainingMs);
    var seconds := remainingMs / 1000;
    if seconds < 0 then 0 else seconds
  }

  /** Both defaults are 15 minutes: 900 seconds, or 900000 ms. */
  lemma DefaultWindowIsFifteenMinutes(createdMs: int, nowMs: int)
    ensures IsWithinEditWindow(createdMs, nowMs) == IsWithinEditWindow(createdMs, nowMs, 15)
    ensures IsWithinEditWindow(createdMs, nowMs) <==> nowMs - createdMs <= 900000
    ensures EditTimeRemaining(createdMs, nowMs) == EditTimeRemaining(createdMs, nowMs, 15)
    ensures EditTimeRemaining(createdMs, createdMs) == 900
  {
  }

  /** The boundary is inclusive: exactly `windowMinutes` after creation is still inside, one millisecond later is not. */
  lemma BoundaryIsInclusive(createdMs: int, windowMinutes: int)
    ensures IsWithinEditWindow(createdMs, createdMs + windowMinutes * 60000, windowMinutes)
    ensures !IsWithinEditWindow(createdMs, createdMs + windowMinutes * 60000 + 1, windowMinutes)
  {
  }

  /** Time left implies the window is still open. */
  lemma RemainingImpliesWithin(createdMs: int, nowMs: int, windowMinutes: int)
    ensures EditTimeRemaining(createdMs, nowMs, windowMinutes) > 0 ==> IsWithinEditWindow(createdMs, nowMs, windowMinutes)
  {
  }

  /** As time passes the window never reopens and the remaining time never grows. */
  lemma WindowOnlyCloses(createdMs: int, earlier: int, later: int, windowMinutes: int)
    requires earlier <= later
    ensures IsWithinEditWindow(createdMs, later, windowMinutes) ==> IsWithinEditWindow(createdMs, earlier, windowMinutes)
    ensures EditTimeRemaining(createdMs, later, windowMinutes) <= EditTimeRemaining(createdMs, earlier, windowMinutes)
  {
    var a := windowMinutes * 60 * 1000 - (earlier - createdMs);
    var b := windowMinutes * 60 * 1000 - (later - createdMs);
    assert b <= a;
    DivisionIsMonotone(b, a);
  }

  lemma DivisionIsMonotone(x: int, y: int)
    requires x <= y
    ensures x / 1000 <= y / 1000
  {
  }

  /** A creation time in the future counts as inside any non-negative window. */
  lemma FutureCreationIsWithin(createdMs: int, nowMs: int, windowMinutes: int)
    requires nowMs < createdMs && windowMinutes >= 0
    ensures IsWithinEditWindow(createdMs, nowMs, windowMinutes)
  {
  }
}

=== FILE: users.dfy ===
/**
 Profile update (PATCH in app/app/api/user/route.ts): username and field
 validation, the normalisation of empty values to null, and the merge of the
 optional symbient fields into the caller's symbient.

 The user row is written before the symbient fields are validated, so a
 symbient-field error still leaves the user update applied.
 */
module Users {
  import opened Js
  import opened Store
  import opened Http
  import Symbients

  /** The `symbient` member of the body, when it is present (a truthy object). */
  datatype SymbientInput = SymbientInput(agentName: Field, description: Field, website: Field)

  /** The members of the JSON body that PATCH reads. */
  datatype ProfileInput = ProfileInput(
    name: Field,
    username: Field,
    about: Field,
    website: Field,
    symbient: Option<SymbientInput>)

  /** The user and symbient tables. */
  datatype Db = Db(users: map<string, User>, symbients: seq<Symbient>)

  const UnauthorizedError := "Unauthorized"
  const UsernameCharsError := "Username must contain only lowercase letters, numbers, and hyphens"
  const UsernameLengthError := "Username must be 2-30 characters"
  const UsernameTakenError := "Username already taken"
  const NameLengthError := "Name must be 50 characters or less"
  const AboutLengthError := "About must be 500 characters or less"
  const WebsiteLengthError := "Website must be 200 characters or less"
  const WebsiteProtocolError := "Website must use http or https protocol"
  const WebsiteFormatError := "Website must be a valid URL"
  const SymbientNameCharsError := "Symbient name must contain only lowercase letters, numbers, and hyphens"
  const SymbientNameLengthError := "Symbient name must be 50 characters or less"
  const SymbientDescriptionLengthError := "Symbient description must be 500 characters or less"
  const SymbientWebsiteLengthError := "Symbient website must be 200 characters or less"
  const SymbientWebsiteProtocolError := "Symbient website must use http or https protocol"
  const SymbientWebsiteFormatError := "Symbient website must be a valid URL"
  const NameConflictError := "You already have a symbient with that name"
  const UpdateFailedError := "Failed to update user"

  const MaxNameLength := 50
  const MaxAboutLength := 500
  const MaxWebsiteLength := 200
  const MaxAgentNameLength := 50
  const MaxDescriptionLength := 500

  /** `/^[a-z0-9-]+$/`. */
  predicate MatchesSlugPattern(s: string) {
    |s| > 0 && forall i | 0 <= i < |s| :: Symbients.IsNameChar(s[i])
  }

  /** Another user already holds this username. */
  predicate TakenByOther(users: map<string, User>, username: string, me: string) {
    exists id | id in users :: id != me && users[id].username == Some(username)
  }

  /** A non-empty username the caller may take: the slug grammar, 2 to 30 characters, not held by anyone else. */
  predicate UsernameAcceptable(username: string, me: string, users: map<string, User>) {
    MatchesSlugPattern(username) && 2 <= |username| <= 30 && !TakenByOther(users, username, me)
  }

  /** The username checks; `undefined`, `null` and "" are not checked. */
  function UsernameError(username: Field, me: string, users: map<string, User>): (e: Option<string>)
    ensures e.None? <==> !Truthy(username) || UsernameAcceptable(username.s, me, users)
    ensures Truthy(username) && !MatchesSlugPattern(username.s) ==> e == Some(UsernameCharsError)
    ensures Truthy(username) && MatchesSlugPattern(username.s) && !(2 <= |username.s| <= 30) ==>
      e == Some(UsernameLengthError)
    ensures Truthy(username) && MatchesSlugPattern(username.s) && 2 <= |username.s| <= 30
            && TakenByOther(users, username.s, me) ==>
      e == Some(UsernameTakenError)
  {
    if !Truthy(username) then None
    else if !MatchesSlugPattern(username.s) then Some(UsernameCharsError)
    else if |username.s| < 2 || |username.s| > 30 then Some(UsernameLengthError)
    else if TakenByOther(users, username.s, me) then Some(UsernameTakenError)
    else None
  }

  /**
   The link check shared by the user's and the symbient's website: a link with
   something other than whitespace in it must parse with protocol http: or https:.
   */
  function LinkError(link: Field, parseUrl: string -> Option<Url>, formatError: string, protocolError: string)
    : (e: Option<string>)
    ensures e.None? <==>
      !Truthy(link) || AllWhitespace(link.s)
      || (parseUrl(link.s).Some? && IsWebProtocol(parseUrl(link.s).value.protocol))
    ensures Truthy(link) && !AllWhitespace(link.s) && parseUrl(link.s).None? ==> e == Some(formatError)
    ensures Truthy(link) && !AllWhitespace(link.s) && parseUrl(link.s).Some?
            && !IsWebProtocol(parseUrl(link.s).value.protocol) ==>
      e == Some(protocolError)
  {
    if Truthy(link) && |Trim(link.s)| > 0 then
      match parseUrl(link.s)
      case None => Some(formatError)
      case Some(u) => if !IsWebProtocol(u.protocol) then Some(protocolError) else None
    else None
  }

  /** A given (non-empty) value longer than `max`. */
  predicate TooLong(f: Field, max: nat) {
    Truthy(f) && |f.s| > max
  }

  /** The name, about and website checks, in the order `PATCH` runs them. */
  function ProfileFieldsError(input: ProfileInput, parseUrl: string -> Option<Url>): (e: Option<string>)
    ensures e.None? <==>
      && !TooLong(input.name, MaxNameLength)
      && !TooLong(input.about, MaxAboutLength)
      && !TooLong(input.website, MaxWebsiteLength)
      && LinkError(input.website, parseUrl, WebsiteFormatError, WebsiteProtocolError).None?
    ensures TooLong(input.name, MaxNameLength) ==> e == Some(NameLengthError)
    ensures !TooLong(input.name, MaxNameLength) && TooLong(input.about, MaxAboutLength) ==>
      e == Some(AboutLengthError)
    ensures !TooLong(input.name, MaxNameLength) && !TooLong(input.about, MaxAboutLength)
            && TooLong(input.website, MaxWebsiteLength) ==>
      e == Some(WebsiteLengthError)
    ensures !TooLong(input.name, MaxNameLength) && !TooLong(input.about, MaxAboutLength)
            && !TooLong(input.website, MaxWebsiteLength) ==>
      e == LinkError(input.website, parseUrl, WebsiteFormatError, WebsiteProtocolError)
  {
    if TooLong(input.name, MaxNameLength) then Some(NameLengthError)
    else if TooLong(input.about, MaxAboutLength) then Some(AboutLengthError)
    else if TooLong(input.website, MaxWebsiteLength) then Some(WebsiteLengthError)
    else LinkError(input.website, parseUrl, WebsiteFormatError, WebsiteProtocolError)
  }

  /** An absent or empty agent name, or one of at most 50 characters of `[a-z0-9-]`. */
  predicate NameFieldOk(agentName: Field) {
    Truthy(agentName) ==> MatchesSlugPattern(agentName.s) && |agentName.s| <= MaxAgentNameLength
  }

  /** The symbient agent-name, description and website checks, in the order `PATCH` runs them. */
  function SymbientFieldsError(si: SymbientInput, parseUrl: string -> Option<Url>): (e: Option<string>)
    ensures e.None? <==>
      && NameFieldOk(si.agentName)
      && !TooLong(si.description, MaxDescriptionLength)
      && !TooLong(si.website, MaxWebsiteLength)
      && LinkError(si.website, parseUrl, SymbientWebsiteFormatError, SymbientWebsiteProtocolError).None?
    ensures Truthy(si.agentName) && !MatchesSlugPattern(si.agentName.s) ==> e == Some(SymbientNameCharsError)
    ensures Truthy(si.agentName) && MatchesSlugPattern(si.agentName.s) && |si.agentName.s| > MaxAgentNameLength ==>
      e == Some(SymbientNameLengthError)
    ensures NameFieldOk(si.agentName) && TooLong(si.description, MaxDescriptionLength) ==>
      e == Some(SymbientDescriptionLengthError)
    ensures NameFieldOk(si.agentName) && !TooLong(si.description, MaxDescriptionLength)
            && TooLong(si.website, MaxWebsiteLength) ==>
      e == Some(SymbientWebsiteLengthError)
    ensures NameFieldOk(si.agentName) && !TooLong(si.description, MaxDescriptionLength)
            && !TooLong(si.website, MaxWebsiteLength) ==>
      e == LinkError(si.website, parseUrl, SymbientWebsiteFormatError, SymbientWebsiteProtocolError)
  {
    if Truthy(si.agentName) && !MatchesSlugPattern(si.agentName.s) then Some(SymbientNameCharsError)
    else if TooLong(si.agentName, MaxAgentNameLength) then Some(SymbientNameLengthError)
    else if TooLong(si.description, MaxDescriptionLength) then Some(SymbientDescriptionLengthError)
    else if TooLong(si.website, MaxWebsiteLength) then Some(SymbientWebsiteLengthError)
    else LinkError(si.website, parseUrl, SymbientWebsiteFormatError, SymbientWebsiteProtocolError)
  }

  /**
   The user row after the update: username only when the key is present, the
   other three always, each with "" and null stored as null.
   */
  function ApplyUserFields(user: User, input: ProfileInput): (u: User)
    ensures u.id == user.id && u.githubLogin == user.githubLogin
    ensures input.username.Undefined? ==> u.username == user.username
    ensures !input.username.Undefined? ==> u.username == OrNull(input.username)
    ensures u.name == OrNull(input.name) && u.about == OrNull(input.about) && u.website == OrNull(input.website)
    ensures u.username.Some? ==> |u.username.value| > 0 || u.username == user.username
  {
    user.(
      username := if input.username.Undefined? then user.username else OrNull(input.username),
      name := OrNull(input.name),
      about := OrNull(input.about),
      website := OrNull(input.website))
  }

  /** Applying the same update twice is the same as applying it once. */
  lemma ApplyUserFieldsIsIdempotent(user: User, input: ProfileInput)
    ensures ApplyUserFields(ApplyUserFields(user, input), input) == ApplyUserFields(user, input)
  {
  }

  /**
   The symbient row after the update: an empty or missing agent name keeps the
   existing one; description and website keep theirs only when the key is
   absent (`null` clears them, "" is stored as ""). Nothing else changes.
   */
  function MergeSymbient(existing: Symbient, si: SymbientInput): (s: Symbient)
    ensures s.id == existing.id && s.userId == existing.userId && s.apiKey == existing.apiKey
    ensures Truthy(si.agentName) ==> s.agentName == si.agentName.s
    ensures !Truthy(si.agentName) ==> s.agentName == existing.agentName
    ensures si.description.Undefined? ==> s.description == existing.description
    ensures !si.description.Undefined? ==> s.description == (if si.description.Str? then Some(si.description.s) else None)
    ensures si.website.Undefined? ==> s.website == existing.website
    ensures !si.website.Undefined? ==> s.website == (if si.website.Str? then Some(si.website.s) else None)
  {
    existing.(
      agentName := if Truthy(si.agentName) then si.agentName.s else existing.agentName,
      description := Overwrite(si.description, existing.description),
      website := Overwrite(si.website, existing.website))
  }

  /** A symbient object that sets nothing leaves the symbient as it is. */
  lemma EmptyMergeKeepsSymbient(existing: Symbient, agentName: Field)
    requires !Truthy(agentName)
    ensures MergeSymbient(existing, SymbientInput(agentName, Undefined, Undefined)) == existing
  {
  }

  /** Merging the same fields twice is the same as merging them once. */
  lemma MergeIsIdempotent(existing: Symbient, si: SymbientInput)
    ensures MergeSymbient(MergeSymbient(existing, si), si) == MergeSymbient(existing, si)
  {
  }

  /** Another symbient of the user already has the requested name. */
  predicate NameTaken(symbients: seq<Symbient>, me: string, agentName: string) {
    exists j | 0 <= j < |symbients| :: symbients[j].userId == me && symbients[j].agentName == agentName
  }

  /** The user-row stage passes: username, fields and the link all check out. */
  predicate UserStageOk(me: string, input: ProfileInput, users: map<string, User>, parseUrl: string -> Option<Url>) {
    UsernameError(input.username, me, users).None? && ProfileFieldsError(input, parseUrl).None?
  }

  /**
   The rename guard: the caller asks for a new, non-empty agent name for their
   (first) symbient that another of their symbients already carries.
   */
  predicate NameConflict(me: string, si: SymbientInput, symbients: seq<Symbient>) {
    && FirstOfUser(symbients, me).Some?
    && Truthy(si.agentName)
    && si.agentName.s != symbients[FirstOfUser(symbients, me).value].agentName
    && NameTaken(symbients, me, si.agentName.s)
  }

  /**
   The symbient stage of PATCH: validate the fields, then merge them into the
   caller's first symbient, if they have one, unless the rename conflicts.
   */
  function UpdateSymbient(me: string, si: SymbientInput, symbients: seq<Symbient>, parseUrl: string -> Option<Url>)
    : (r: Reply<seq<Symbient>>)
    ensures r.Fail? ==> r.status == 400 && r.code.None?
    ensures SymbientFieldsError(si, parseUrl).Some? ==> r.Fail? && r.error == SymbientFieldsError(si, parseUrl).value
    ensures SymbientFieldsError(si, parseUrl).None? && NameConflict(me, si, symbients) ==>
      r == Error(400, NameConflictError)
    ensures r.Ok? <==> SymbientFieldsError(si, parseUrl).None? && !NameConflict(me, si, symbients)
    ensures r.Ok? && FirstOfUser(symbients, me).None? ==> r.value == symbients
    ensures r.Ok? && FirstOfUser(symbients, me).Some? ==>
      var i := FirstOfUser(symbients, me).value;
      r.value == symbients[i := MergeSymbient(symbients[i], si)]
  {
    match SymbientFieldsError(si, parseUrl)
    case Some(e) => Error(400, e)
    case None =>
      match FirstOfUser(symbients, me)
      case None => Ok(symbients)
      case Some(i) =>
        var existing := symbients[i];
        if Truthy(si.agentName) && si.agentName.s != existing.agentName
           && NameTaken(symbients, me, si.agentName.s) then
          Error(400, NameConflictError)
        else
          Ok(symbients[i := MergeSymbient(existing, si)])
  }

  /** PATCH /api/user. */
  function UpdateProfile(session: Option<string>, input: ProfileInput, db: Db, parseUrl: string -> Option<Url>)
    : (r: (Reply<User>, Db))
    ensures !Present(session) ==> r == (Error(401, UnauthorizedError), db)
    ensures Present(session) && UsernameError(input.username, session.value, db.users).Some? ==>
      r == (Error(400, UsernameError(input.username, session.value, db.users).value), db)
    ensures Present(session) && UsernameError(input.username, session.value, db.users).None?
            && ProfileFieldsError(input, parseUrl).Some? ==>
      r == (Error(400, ProfileFieldsError(input, parseUrl).value), db)
    ensures Present(session) && UserStageOk(session.value, input, db.users, parseUrl) && session.value !in db.users ==>
      r == (Error(500, UpdateFailedError), db)
    ensures Present(session) && UserStageOk(session.value, input, db.users, parseUrl) && session.value in db.users ==>
      && r.1.users == db.users[session.value := ApplyUserFields(db.users[session.value], input)]
      && (r.0.Ok? ==> r.0.value == ApplyUserFields(db.users[session.value], input))
    ensures r.0.Ok? <==>
      && Present(session) && UserStageOk(session.value, input, db.users, parseUrl)
      && session.value in db.users
      && (input.symbient.Some? ==>
            SymbientFieldsError(input.symbient.value, parseUrl).None?
            && !NameConflict(session.value, input.symbient.value, db.symbients))
    ensures r.0.Fail? || input.symbient.None? ==> r.1.symbients == db.symbients
    ensures Present(session) && UserStageOk(session.value, input, db.users, parseUrl) && session.value in db.users
            && input.symbient.Some? && r.0.Fail? ==>
      var stage := UpdateSymbient(session.value, input.symbient.value, db.symbients, parseUrl);
      stage.Fail? && r.0 == Fail(stage.status, stage.error, stage.code)
    ensures r.0.Ok? && input.symbient.Some? ==>
      r.1.symbients == UpdateSymbient(session.value, input.symbient.value, db.symbients, parseUrl).value
  {
    if !Present(session) then (Error(401, UnauthorizedError), db)
    else
      var me := session.value;
      match UsernameError(input.username, me, db.users)
      case Some(e) => (Error(400, e), db)
      case None =>
        match ProfileFieldsError(input, parseUrl)
        case Some(e) => (Error(400, e), db)
        case None =>
          if me !in db.users then (Error(500, UpdateFailedError), db)
          else
            var updated := ApplyUserFields(db.users[me], input);
            var users := db.users[me := updated];
            match input.symbient
            case None => (Ok(updated), Db(users, db.symbients))
            case Some(si) =>
              match UpdateSymbient(me, si, db.symbients, parseUrl)
              case Ok(symbients) => (Ok(updated), Db(users, symbients))
              case Fail(status, error, code) => (Fail(status, error, code), Db(users, db.symbients))
  }

  /** No two users hold the same username: the unique constraint on the column. */
  ghost predicate UniqueUsernames(users: map<string, User>) {
    forall a, b | a in users && b in users && a != b && users[a].username.Some? ::
      users[a].username != users[b].username
  }

  /** A symbient-field error comes after the user row is written: the 400 leaves the user update in place. */
  lemma SymbientErrorKeepsUserUpdate(session: Option<string>, input: ProfileInput, db: Db, parseUrl: string -> Option<Url>)
    requires Present(session) && UserStageOk(session.value, input, db.users, parseUrl) && session.value in db.users
    requires input.symbient.Some? && SymbientFieldsError(input.symbient.value, parseUrl).Some?
    ensures var me := session.value;
      UpdateProfile(session, input, db, parseUrl)
        == (Error(400, SymbientFieldsError(input.symbient.value, parseUrl).value),
            Db(db.users[me := ApplyUserFields(db.users[me], input)], db.symbients))
  {
  }

  /** A PATCH never gives two users the same username. */
  lemma UpdateKeepsUsernamesUnique(session: Option<string>, input: ProfileInput, db: Db, parseUrl: string -> Option<Url>)
    requires UniqueUsernames(db.users)
    ensures UniqueUsernames(UpdateProfile(session, input, db, parseUrl).1.users)
  {
    var users := UpdateProfile(session, input, db, parseUrl).1.users;
    if users != db.users {
      var me := session.value;
      var u := ApplyUserFields(db.users[me], input);
      assert users == db.users[me := u];
      forall a, b | a in users && b in users && a != b && users[a].username.Some?
        ensures users[a].username != users[b].username
      {
        if a == me || b == me {
          var other := if a == me then b else a;
          if u.username != db.users[me].username && u.username.Some? {
            assert !TakenByOther(db.users, input.username.s, me);
            assert db.users[other].username != Some(input.username.s);
          }
        }
      }
    }
  }

  /** Sending back one's own username is never refused as taken. */
  lemma OwnUsernameIsNotTaken(me: string, username: string, users: map<string, User>)
    requires UniqueUsernames(users)
    requires me in users && users[me].username == Some(username)
    ensures !TakenByOther(users, username, me)
  {
  }

  /** Every name the creation grammar admits passes the PATCH check, which also admits names creation refuses. */
  lemma PatchAcceptsEveryCreatableName(name: string)
    ensures Symbients.ValidAgentName(name) ==> MatchesSlugPattern(name) && |name| <= MaxAgentNameLength
    ensures MatchesSlugPattern("-a") && !Symbients.ValidAgentName("-a")
  {
  }

  /** A rename conflict needs a second symbient of the same user. */
  lemma NameConflictNeedsTwoSymbients(me: string, si: SymbientInput, symbients: seq<Symbient>)
    requires NameConflict(me, si, symbients)
    ensures OwnedBy(symbients, me) >= 2
  {
    var i := FirstOfUser(symbients, me).value;
    var j :| 0 <= j < |symbients| && symbients[j].userId == me && symbients[j].agentName == si.agentName.s;
    TwoRowsOwnTwo(symbients, me, i, j);
  }

  /** With one symbient per user, the rename guard never fires: valid symbient fields are always merged. */
  lemma RenameNeverConflictsWithOneSymbient(
    me: string, si: SymbientInput, symbients: seq<Symbient>, parseUrl: string -> Option<Url>)
    requires Symbients.OnePerUser(symbients)
    ensures !NameConflict(me, si, symbients)
    ensures SymbientFieldsError(si, parseUrl).None? ==> UpdateSymbient(me, si, symbients, parseUrl).Ok?
  {
    assert OwnedBy(symbients, me) <= 1;
    if NameConflict(me, si, symbients) {
      NameConflictNeedsTwoSymbients(me, si, symbients);
    }
  }
}
